=== FILE: README.md ===
# Relay manager: a verified model of its core

Relay manager is a web application for sharing lab equipment that is powered
through network relay boards (Devantech boards that report their relays as an
XML page and switch them on a pulse request). Users lock a piece of equipment
for a lease, toggle its relays, and attach to its serial console; every browser
tab follows relay and lock changes live through a server-sent-events stream.

This project models the sequential logic of that core in Dafny and proves what
it promises. The model is functional. Database tables, the relay-state cache
and the serial sessions are maps. Time is milliseconds, passed in. A hardware
reply, a query result, a port event or a timer firing is an explicit input or
event. A server action is a total function from the store to a `Result`,
together with the events it publishes.

| file | module | models |
|---|---|---|
| `wrappers.dfy` | `Wrappers` | `Option` and `Result` |
| `text.dfy` | `Text` | digits, `startsWith`, decimal rendering |
| `relay_bits.dfy` | `RelayBits` | the relay-state string and its one-character flip |
| `devantech.dfy` | `Devantech` | `parseDevantechXml` |
| `relay_service.dfy` | `RelayService` | the state cache, sync, toggle and background sweep |
| `relay_events.dfy` | `RelayEvents` | the change bus |
| `session.dfy` | `Session` | the authenticated user |
| `settings.dfy` | `Settings` | global lock settings |
| `equipment_lock.dfy` | `EquipmentLock` | the equipment lease lock |
| `equipments.dfy` | `Equipments` | relay-slot allocation and role visibility |
| `serial_manager.dfy` | `SerialManager` | the serial session multiplexer |
| `events_route.dfy` | `EventsRoute` | the SSE stream's life cycle |
| `client_state.dfy` | `ClientState` | the browser's relay and lock state |
| `proxy.dfy` | `Proxy` | the route guard |

The JavaScript semantics the code relies on are written out:

- Assigning past the end of a split string grows it. A negative index is ignored by `join`.
- `x || default` also replaces the empty string.
- `response.ok` means a status of 200 to 299.
- A regular-expression `match` takes the leftmost occurrence.
- An id or a number is "truthy" only when it is present and not empty or zero.

## Model

| member | source | states |
|---|---|---|
| RelayBits.FlipAt | src/lib/relay-service.ts:206-210 | flipping relay `i` turns `'1'` into `'0'` and anything else into `'1'`, keeps the length and every other character; a negative index changes nothing, an index at or past the end appends `'1'` |
| RelayBits.RelayOn | src/lib/relay-service.ts:233-235 | a relay reads as on only if its index lies inside the state string and its character is `'1'` |
| RelayBits.FlipTogglesOnlyThatRelay | src/lib/relay-service.ts:206-210 | after a flip of an in-range `'0'`/`'1'` relay, that relay reads the opposite and every other relay reads as before |
| RelayBits.FlipTwiceRestores | src/components/providers/relay-state-provider.tsx:51-61 | flipping an in-range `'0'`/`'1'` position twice gives back the original string |
| RelayBits.FlipTwicePastEndGrows | src/components/providers/relay-state-provider.tsx:53-58 | past the end the double flip is not a rollback: it leaves the string one `'0'` longer |
| Devantech.FindFrom | src/lib/relay-service.ts:48 | the search returns the leftmost position from which a well-formed `<RlyN>D</RlyN>` tag starts, or none when no such tag follows |
| Devantech.FirstMatchIsFound | src/lib/relay-service.ts:48 | the leftmost match of the pattern is the one the search finds |
| Devantech.ParseDevantechXml | src/lib/relay-service.ts:44-52 | exactly `totalRelays` characters (none for a negative count), all decimal digits; relay N gets the digit of its leftmost well-formed tag, and `'0'` when the page has none |
| RelayService.SyncBoardState | src/lib/relay-service.ts:55-96 | an unknown board or a failed request is an error; otherwise the parsed state goes to the cache with a fresh timestamp and always to the database, and is published iff nothing was cached or the cached state differs |
| RelayService.GetBoardState | src/lib/relay-service.ts:99-109 | a cache entry younger than 2000 ms is returned with no hardware read and no change; otherwise the read is exactly a full sync of the board |
| RelayService.FreshReadIgnoresHardware | src/lib/relay-service.ts:103-105 | within the TTL the read's outcome is the same whatever the board would reply |
| RelayService.StaleReadConsultsHardware | src/lib/relay-service.ts:107-108 | past the TTL the read fails when the board is unreachable and refreshes the cache when it answers |
| RelayService.SyncTwicePublishesOnce | src/lib/relay-service.ts:76-94 | a second sync reading the same page returns the same state and publishes nothing |
| RelayService.ToggleCommand | src/lib/relay-service.ts:180-196 | an unknown board or an index outside `[0, totalRelays)` is rejected before anything is sent; otherwise the pulse goes to the board's address for relay number `relayIndex + 1` |
| RelayService.ToggleRelay | src/lib/relay-service.ts:176-230 | a known board, a relay index in range and a good pulse reply always succeed; after a successful pulse, a cached board gets exactly that relay flipped in cache and database and one event announcing the new state; an uncached board changes nothing and the database state is returned; a failed pulse is an error |
| RelayService.ToggleThenReadSeesFlip | src/lib/relay-service.ts:205-215 | a read within the TTL after a toggle reports that relay flipped and every other relay unchanged, without consulting the hardware |
| RelayService.UncachedToggleIsSilent | src/lib/relay-service.ts:206-229 | with no cache entry the toggle pulses, publishes and writes nothing, and returns the persisted state |
| RelayService.SweepEntry | src/lib/relay-service.ts:120-147 | a failed fetch leaves the board and its cache entry as they were; a good one refreshes the cache and writes and publishes only when the state changed |
| RelayService.SweepBoard | src/lib/relay-service.ts:119-148 | one board's sweep touches no other board's row or cache entry and publishes only about that board |
| RelayService.SyncAllBoards | src/lib/relay-service.ts:112-153 | after the sweep each board holds exactly what its own fetch gives on the starting state, whatever the others' fetches did; the events are exactly the per-board events, at most one per board |
| RelayService.ToggleThenAgreeingSweepIsSilent | src/lib/relay-service.ts:125-215 | on an 8-relay board cached all-off, toggling relay 0 returns `"10000000"`, and a sweep reading that state back publishes nothing |
| RelayService.StartPeriodicSync | src/lib/relay-service.ts:156-164 | afterwards an interval runs; an immediate sweep starts iff none was running |
| RelayService.StopPeriodicSync | src/lib/relay-service.ts:167-173 | afterwards no interval runs |
| RelayService.StartIsGuarded | src/lib/relay-service.ts:157 | starting twice starts one sweep, and a start after a stop sweeps again |
| RelayEvents.SubscribeRelay | src/lib/relay-events.ts:26-28 | the listener joins the relay set; the lock set is untouched |
| RelayEvents.UnsubscribeRelay | src/lib/relay-events.ts:29-32 | exactly that listener leaves the relay set; the lock set is untouched |
| RelayEvents.SubscribeLock | src/lib/relay-events.ts:47-49 | the listener joins the lock set; the relay set is untouched |
| RelayEvents.UnsubscribeLock | src/lib/relay-events.ts:50-53 | exactly that listener leaves the lock set; the relay set is untouched |
| RelayEvents.EmitRelay | src/lib/relay-events.ts:35-44 | every relay listener is called with the event, no lock listener is called, and the listeners that throw are reported |
| RelayEvents.EmitLock | src/lib/relay-events.ts:56-65 | every lock listener is called with the event and no relay listener |
| RelayEvents.ListenerCount | src/lib/relay-events.ts:67-69 | the count is zero exactly when both sets are empty |
| RelayEvents.ThrowingListenersDoNotStopDelivery | src/lib/relay-events.ts:37-43 | which listeners throw does not change which listeners are called |
| RelayEvents.SubscribeThenUnsubscribeRestores | src/lib/relay-events.ts:26-53 | subscribing a fresh listener and calling its unsubscribe gives back the same bus |
| RelayEvents.UnsubscribeIdempotent | src/lib/relay-events.ts:29-32 | calling an unsubscribe function twice is the same as once |
| RelayEvents.SubscribeIdempotent | src/lib/relay-events.ts:26-27 | subscribing the same listener twice registers it once and counts it once |
| Settings.GetSettings | src/actions/settings.ts:16-33 | the stored row is returned as it is; when there is none the defaults are stored, returned and valid |
| Settings.UpdateSettings | src/actions/settings.ts:35-72 | non-admins are refused; a timeout under 5, a warning under 1, and a warning not below the timeout are refused in that order; otherwise the row holds exactly the submitted values |
| Settings.StoredSettingsStayValid | src/actions/settings.ts:44-66 | starting from no row or a valid one, reads and updates keep the stored row valid |
| Settings.DefaultsPassValidation | src/actions/settings.ts:22-29 | an admin submitting the defaults 30/5 passes every rule |
| EquipmentLock.LockEquipment | src/actions/equipment-lock.ts:17-92 | the lock succeeds iff the update filter matches; the caller then holds the lock from now to now plus the timeout in minutes, and one event announces it; a non-admin facing another user's active lock gets that user's email |
| EquipmentLock.LockEquipmentCorrected | src/actions/equipment-lock.ts:42-61 | with the expiry filter made inclusive, the lock succeeds exactly when the read check lets the caller through |
| EquipmentLock.LockAtExpiryInstantFails | src/actions/equipment-lock.ts:42-59 | at `lockExpiresAt == now` the lock counts as expired to the read, yet the as-written update rejects another user; the corrected one admits them |
| EquipmentLock.RelockByOwnerExtends | src/actions/equipment-lock.ts:46-66 | the holder locking again succeeds and moves the expiry to now plus the timeout |
| EquipmentLock.AdminLockPreempts | src/actions/equipment-lock.ts:46-60 | an admin's lock succeeds whoever holds the equipment |
| EquipmentLock.RacingLocksHaveOneWinner | src/actions/equipment-lock.ts:30-76 | of two users locking a free equipment in turn, the first wins and the second, a non-admin, is told who holds it |
| EquipmentLock.UnlockEquipment | src/actions/equipment-lock.ts:95-134 | the three fields are cleared and a cleared event published iff the caller holds the lock or is an admin and someone holds it; otherwise an error and no change |
| EquipmentLock.RenewLock | src/actions/equipment-lock.ts:137-191 | only the holder renews, and only the expiry changes; anyone else gets `renewed: false` with no change, no event and no error |
| EquipmentLock.RenewRevivesLapsedLock | src/actions/equipment-lock.ts:149-158 | since expiry is not checked, the holder renewing a lapsed but uncleared lock makes it active again |
| EquipmentLock.GetLockStatus | src/actions/equipment-lock.ts:194-260 | `isLocked` iff the lock is active; `canControl` is not locked, or owner, or admin; holder and expiry are reported only while active; outside the lazy clear `isOwner` holds iff the caller is the recorded holder and nothing changes; a lapsed held lock is reported free and controllable, announced cleared, and cleared only where its expiry is strictly before now, the store being otherwise unchanged |
| EquipmentLock.GetLockStatusCorrected | src/actions/equipment-lock.ts:213-229 | with an inclusive lazy-clear filter a lapsed well-formed lock is always cleared |
| EquipmentLock.LazyClearAtExpiryInstantRepeats | src/actions/equipment-lock.ts:213-236 | as written, a read at the expiry instant announces the clear but keeps the row, so the next read announces it again |
| EquipmentLock.CorrectedLazyClearPublishesOnce | src/actions/equipment-lock.ts:218-236 | with the inclusive filter, a read after the clearing one publishes nothing |
| EquipmentLock.ForceUnlockEquipment | src/actions/equipment-lock.ts:263-288 | non-admins are refused before the store is touched; for admins an existing row is cleared whoever holds it and a cleared event published, and a missing row is an error |
| EquipmentLock.TransitionsPreserveWellFormed | src/actions/equipment-lock.ts:51-276 | every transition keeps holder and timestamps set or cleared together |
| Equipments.SlotsFrom | src/actions/equipments.ts:117-134 | from a given start on, the free starts that fit, strictly ascending, and all of them |
| Equipments.FindAvailableSlots | src/actions/equipments.ts:85-137 | nothing for an unknown board; otherwise exactly the starts whose range lies in `1..totalRelays` and overlaps no equipment, strictly ascending |
| Equipments.CreateStartRelay | src/actions/equipments.ts:148-203 | admins only; a missing type and then a missing board are their own errors; without a start, success iff a free slot exists, and then the smallest one, otherwise the no-space error; with one, accepted iff it fits and is free |
| Equipments.UpdateStartRelay | src/actions/equipments.ts:240-305 | admins only, the equipment must exist; a changed start is accepted iff the board exists, the new end is within the board and no other equipment overlaps; an omitted or unchanged start always succeeds and keeps the start |
| Equipments.MoveMayOverlapOwnRange | src/actions/equipments.ts:261 | the equipment's own old range does not block a move onto it |
| Equipments.MoveBelowRelayOneAccepted | src/actions/equipments.ts:280-291 | the move check has no lower bound: a start of -3 is accepted |
| Equipments.UpdateStartRelayCorrected | src/actions/equipments.ts:280-284 | with the lower bound added, a changed start is accepted iff the board exists, the range fits within relays `1..totalRelays` and overlaps no other equipment; otherwise as written |
| Equipments.CorrectedMoveStaysOnBoard | src/actions/equipments.ts:280-284 | an equipment within its board stays within it after a corrected move |
| Equipments.CorrectedMoveBelowRelayOneRefused | src/actions/equipments.ts:280-284 | the corrected check refuses the move to relay -3 |
| Equipments.InsertKeepsSorted | src/actions/equipments.ts:374 | inserting keeps the sequence sorted by start and adds exactly the new element |
| Equipments.SortByStartSorts | src/actions/equipments.ts:374 | the result is sorted by start and a permutation of the input |
| Equipments.GapScanFindsFreeRun | src/actions/equipments.ts:376-388 | on sorted disjoint ranges the gap loop reaches `k` iff the running best does or a run of `k` free relays fits from the current start on |
| Equipments.LargestGapIsLongestFreeRun | src/actions/equipments.ts:366-389 | on a consistent board, `hasSpaceFor` reaches `k` iff `findAvailableSlots` offers a start for `k` relays |
| Equipments.BoardSpaceOf | src/actions/equipments.ts:359-398 | `availableRelays` is the total less the sum of relay counts; with a truthy requirement `hasSpaceFor` is the longest free run, otherwise the unused count |
| Equipments.GetBoardsForEquipment | src/actions/equipments.ts:340-400 | non-admins are refused; one entry per board with the two numbers above |
| Equipments.GetEquipment | src/actions/equipments.ts:51-82 | unauthenticated callers are refused; the equipment is returned iff the caller is an admin, it has no roles, or it shares a role with the caller, and otherwise null |
| Equipments.Visible | src/actions/equipments.ts:23-30 | exactly the equipment the caller's roles allow |
| Equipments.GetEquipments | src/actions/equipments.ts:14-49 | unauthenticated callers are refused; a signed-in caller gets exactly the equipment they may see: all of it for an admin, otherwise the equipment with no roles or sharing one of theirs |
| Equipments.ListAgreesWithDetail | src/actions/equipments.ts:20-79 | an equipment is in the caller's list iff the detail read shows it to the caller |
| SerialManager.Trim | src/lib/serial-manager.ts:52-55 | the buffer keeps the last `min(50000, n)` characters of what it holds |
| SerialManager.Broadcast | src/lib/serial-manager.ts:59-63 | a frame reaches exactly the connection's clients whose socket is open |
| SerialManager.CloseConnection | src/lib/serial-manager.ts:147-161 | the id leaves the map, and exactly its open clients hear `disconnected` |
| SerialManager.GetOrCreateConnection | src/lib/serial-manager.ts:23-101 | an open connection is reused unchanged whatever baud rate is asked; otherwise a stale one is closed and a fresh empty connection is added iff the port opens |
| SerialManager.AddClient | src/lib/serial-manager.ts:104-115 | the client joins; it gets `history` with the buffer iff the buffer is non-empty, then `connected` |
| SerialManager.Join | server.ts:49-54 | a join succeeds iff the connection is already open or the port opens; joining an open connection adds the client and sends the history when there is any, then `connected`; a fresh connection holds just the client and sends only `connected`; a failed open leaves no entry; other ids are untouched |
| SerialManager.RemoveClient | src/lib/serial-manager.ts:118-134 | the client leaves; the grace timer starts iff no client is left; an unknown id changes nothing |
| SerialManager.GraceTimerFired | src/lib/serial-manager.ts:126-131 | the connection closes only if it still exists with no client when the timer fires |
| SerialManager.PortData | src/lib/serial-manager.ts:48-64 | the chunk is appended and the buffer trimmed to at most 50000 characters; the chunk reaches exactly the open clients; other connections are untouched |
| SerialManager.PortError | src/lib/serial-manager.ts:66-74 | an error frame reaches exactly the open clients; the map is unchanged |
| SerialManager.PortClosed | src/lib/serial-manager.ts:76-85 | exactly the id leaves the map, and exactly the connection's open clients hear `disconnected` |
| SerialManager.Write | src/lib/serial-manager.ts:137-144 | the data goes to the port, and true comes back, iff the connection exists and is open |
| SerialManager.WriteNeedsConnection | src/lib/serial-manager.ts:137-161 | a write succeeds iff the port reads as connected, and fails once its connection was closed or its port reported closing |
| SerialManager.IsConnected | src/lib/serial-manager.ts:175-178 | true iff the id is mapped and its port is open |
| SerialManager.GetClientCount | src/lib/serial-manager.ts:181-183 | 0 for an unknown id, otherwise the number of clients |
| SerialManager.CloseAll | src/lib/serial-manager.ts:186-190 | no connection remains, and every open client of every connection hears `disconnected` |
| SerialManager.TrimAbsorbs | src/lib/serial-manager.ts:52-55 | trimming after each chunk keeps what trimming at the end would |
| SerialManager.BufferIsTailOfOutput | src/lib/serial-manager.ts:48-55 | whatever the chunking, the buffer is the last 50000 characters of everything the port produced |
| SerialManager.RejoinWithinGraceKeepsConnection | src/lib/serial-manager.ts:118-133 | a client rejoining before the timer fires keeps the connection and its buffer, and the timer then does nothing |
| SerialManager.LastClientLeavingClosesAfterGrace | src/lib/serial-manager.ts:125-131 | without a rejoin the timer closes the connection, after which it reads as disconnected with 0 clients |
| EventsRoute.Get | src/app/api/relay/events/route.ts:15-28 | no session gives 401 and no stream; otherwise a stream that holds no subscription yet |
| EventsRoute.BoardFrames | src/app/api/relay/events/route.ts:37-41 | one relay frame per board, in order, carrying its persisted state |
| EventsRoute.HeldRows | src/app/api/relay/events/route.ts:48-51 | exactly the rows with a holder |
| EventsRoute.LockFrames | src/app/api/relay/events/route.ts:62-75 | a frame for every lock that expires after now, and for no other |
| EventsRoute.BoardsArrived | src/app/api/relay/events/route.ts:32-44 | without a cancel, the board frames are appended; after a cancel, a non-empty list makes `start` return, and an empty one does not |
| EventsRoute.LocksArrived | src/app/api/relay/events/route.ts:47-117 | without a cancel, the active locks are sent and both subscriptions and the heartbeat are set up; after a cancel, or when the query fails, nothing is sent; after a cancel with a held lock it returns without subscribing, but with no held lock (or a failed query) both subscriptions are still made |
| EventsRoute.LocksArrivedCorrected | src/app/api/relay/events/route.ts:81-92 | with a closed check before subscribing, a cancelled stream subscribes nothing; otherwise as written |
| EventsRoute.Cancel | src/app/api/relay/events/route.ts:119-133 | the stream is closed, the heartbeat cleared, and exactly the stream's live subscriptions are removed from the bus |
| EventsRoute.RelayDelivered | src/app/api/relay/events/route.ts:81-89 | a closed stream enqueues nothing; an open one enqueues the relay frame |
| EventsRoute.LockDelivered | src/app/api/relay/events/route.ts:92-104 | a closed stream enqueues nothing; an open one enqueues the lock frame |
| EventsRoute.HeartbeatTick | src/app/api/relay/events/route.ts:107-117 | an open stream gets a heartbeat; a closed one clears the interval |
| EventsRoute.FrameText | src/app/api/relay/events/route.ts:39-40 | a payload frame is `data: ` + JSON + a blank line, and the JSON can be cut back out of it; the heartbeat is `: heartbeat` and a blank line |
| EventsRoute.GetStartsClean | src/app/api/relay/events/route.ts:15-28 | a new stream holds nothing on the bus |
| EventsRoute.GuardedStepKeepsClean | src/app/api/relay/events/route.ts:28-133 | with the corrected step, every event keeps the bus tracking the stream's subscriptions and a closed stream holds none |
| EventsRoute.GuardedRunNeverLeaks | src/app/api/relay/events/route.ts:28-133 | with the corrected step, in any order of events, once the client has cancelled the bus is as before the stream connected |
| EventsRoute.CancelDuringEmptySnapshotLeaks | src/app/api/relay/events/route.ts:37-92 | as written, a cancel during the queries followed by empty results leaves a closed stream with both listeners on the bus |
| EventsRoute.CancelDuringEmptySnapshotGuarded | src/app/api/relay/events/route.ts:37-92 | the same run with the corrected step leaves the bus as it was |
| EventsRoute.CancelAfterStartRestoresBus | src/app/api/relay/events/route.ts:119-133 | once `start` has finished, `cancel` brings the listener count back to its value before the connection |
| EventsRoute.SnapshotComesFirst | src/app/api/relay/events/route.ts:32-41 | the stream opens with one relay frame per board, in order |
| ClientState.GetBoardState | src/hooks/use-relay-state.ts:133-138 | the stored state, or `"00000000"` when it is missing or empty |
| ClientState.GetRelayState | src/hooks/use-relay-state.ts:140-146 | true iff the index lies in the shown state and its character is `'1'` |
| ClientState.IsBoardConnected | src/hooks/use-relay-state.ts:148-153 | false for a board never heard of |
| ClientState.GetLockState | src/hooks/use-relay-state.ts:155-160 | null iff the equipment has no entry |
| ClientState.OnMessage | src/hooks/use-relay-state.ts:70-101 | a relay message sets that board's state and connected flag and nothing else; a lock message replaces that equipment's entry only; anything else changes nothing |
| ClientState.UpdateLocalState | src/components/providers/relay-state-provider.tsx:51-61 | the shown state of that board, the default when it has none, gets one relay flipped; a negative index changes nothing, an index past the end appends `'1'`; other boards read as before |
| ClientState.UpdateLocalLock | src/components/providers/relay-state-provider.tsx:64-69 | that equipment's lock entry is replaced and no other |
| ClientState.LocalLockMatchesEcho | src/components/providers/relay-state-provider.tsx:64-69 | the optimistic lock update is what the server's lock message for the same change does, so the echo changes nothing further |
| ClientState.RollbackRestoresView | src/components/providers/relay-state-provider.tsx:51-61 | flipping a `'0'`/`'1'` relay twice shows every board and relay as before |
| ClientState.ServerStateOverridesOptimisticFlip | src/hooks/use-relay-state.ts:74-80 | the server's relay message replaces an optimistic flip completely |
| ClientState.MessageOf | src/hooks/use-relay-state.ts:72-88 | a relay frame parses to a relay message, and a lock frame to a lock message, with the same fields |
| ClientState.SnapshotLeavesOthers | src/hooks/use-relay-state.ts:77-85 | the relay snapshot leaves every board it does not name as it was |
| ClientState.SnapshotFillsStates | src/hooks/use-relay-state.ts:74-85 | after the stream's relay snapshot, every board shows its persisted state and reads as connected |
| Proxy.AuthDecision | src/proxy.ts:11-32 | `/api/auth` paths pass; a signed-in user on `/login` goes to `/`; an anonymous user elsewhere goes to `/login`; the request passes iff it is an auth path or exactly one of "signed in" and "on the login page" holds |
| Proxy.NeverRedirectsToItself | src/proxy.ts:17-31 | no path is redirected to itself |
| Proxy.RedirectSettlesInOneHop | src/proxy.ts:17-31 | the page a user is redirected to lets the same user through |

## Left out

- The per-board mutex `withLock` (src/lib/relay-service.ts:22-41) is not modelled. Every operation is one atomic step, and `toggleRelay` and the sweep never take the mutex.
- Concurrency between operations is not modelled: the interleaving of awaits, and `Promise.allSettled` in the sweep. The sweep is proved board by board on the starting state.
- `fetch`, its `AbortSignal` timeouts and the URLs are not modelled. A reply is an input, and the request the service would send is returned as a `Command`.
- `setInterval` and `setTimeout` scheduling is not modelled. The 200 ms resync after a toggle is a separate `SyncBoardState`, and timer firings are explicit events.
- `checkBoardConnection` and `checkAllBoardConnections` are not modelled: they only report `response.ok` of a fetch.
- Prisma queries and transactions are not modelled. The store is a map, and each transaction or conditional update is one atomic step. A `update` whose filter matches no row is the `RecordNotFound` error.
- The `order` field `createEquipment` computes is not modelled, nor the name, description and serial-number fields: they carry no logic.
- `deleteEquipment` is not modelled: it is an admin check and a delete.
- Which listener function is which, and the order in which `Set.forEach` calls them, are not modelled. Listeners are identifiers, and one emit's calls form a set.
- JSON encoding and `Date` objects are not modelled. A frame's JSON text is a parameter of `EventsRoute.FrameText`, and times are integers of milliseconds.
- The server-side `close` event of a port that `closeConnection` has already replaced is not modelled. The handler still holds the old connection and would notify its old clients again, and it deletes the id even if a new connection now holds it. The model treats a `close` event as concerning the connection currently mapped.
- The `serialport` library, `listPorts`, the WebSocket server wiring in `server.ts`, the client's reconnect loop, and `ws.readyState` are not modelled. Which sockets are open is an input.
- JavaScript strings count UTF-16 code units. The model counts characters, so the buffer bound of `SerialManager.Trim` is in characters.
- `NaN` and fractional numbers are not modelled. All numeric inputs are integers: a `NaN` timeout would pass every comparison in `updateSettings`.
- The middleware `matcher` (src/proxy.ts:34-36) is not modelled. `Proxy.AuthDecision` covers the paths it lets through.
- React rendering, the `sseConnected` flag, `checkConnections` polling, and the EventSource reconnect loop are not modelled.
- RelayEvents.ListenerCount: states that the count is zero exactly when both sets are empty, not the sum of the two set sizes, which is its definition; how subscriptions move the count is stated by `RelayEvents.SubscribeIdempotent` and `EventsRoute.TrackedCount`.
- EventsRoute.LockFrames: states which frames are sent, not their order (the source sends them in query order).
- Equipments.GetEquipments: states which equipment the list holds, not the `name` ordering the query applies.

## Findings

| source | as written | input that shows it | evidently intended | confidence | as-written member | corrected member |
|---|---|---|---|---|---|---|
| src/actions/equipment-lock.ts:42-59 | the read treats a lock as active while `lockExpiresAt > now`, but the update filter admits expired locks only with `lockExpiresAt < now` | a non-admin locks an equipment whose other holder's lease ends exactly at `now`: the read lets them through, the update matches no row, and Prisma throws | expired means `lockExpiresAt <= now` in both places, so the caller gets the lock | not executed | EquipmentLock.LockAtExpiryInstantFails | EquipmentLock.LockEquipmentCorrected |
| src/actions/equipment-lock.ts:213-236 | the lazy clear runs when the read finds the lock lapsed (`lockExpiresAt <= now`), but clears only rows with `lockExpiresAt < now`, and publishes "cleared" either way | a status read at exactly the expiry millisecond publishes "cleared" and keeps the row; the next read publishes "cleared" again | the row is cleared whenever the read found it lapsed, so "cleared" is published once | not executed | EquipmentLock.LazyClearAtExpiryInstantRepeats | EquipmentLock.CorrectedLazyClearPublishesOnce |
| src/app/api/relay/events/route.ts:37-92 | the `isClosed` checks sit only inside the snapshot loops, so an empty or failed snapshot lets `start` subscribe after `cancel` | the client cancels while both queries are pending, and both return empty lists: two listeners stay on the bus for good | `start` checks `isClosed` before subscribing, so a cancelled stream never subscribes | not executed | EventsRoute.CancelDuringEmptySnapshotLeaks | EventsRoute.GuardedRunNeverLeaks |
| src/actions/equipments.ts:280-284 | a changed start is checked only against the board's end, not against relay 1 | an admin moves a 2-relay equipment, alone on its board, to start relay -3: the update succeeds and stores a range partly before relay 1 | the new range must also start at relay 1 or later, as `createEquipment` ensures through `findAvailableSlots` | not executed | Equipments.MoveBelowRelayOneAccepted | Equipments.CorrectedMoveStaysOnBoard |

=== FILE: client_state.dfy ===
/**
 * The browser's view of relays and locks (`useRelayState` and
 * `RelayStateProvider`): three maps fed by the SSE stream, plus the two
 * optimistic updates a control card makes before the server answers.
 */
module ClientState {
  import opened Wrappers
  import opened RelayBits
  import opened RelayEvents
  import EventsRoute

  datatype ClientState = ClientState(
    states: map<string, string>,
    connections: map<string, bool>,
    locks: map<string, LockInfo>)

  const Initial := ClientState(map[], map[], map[])

  /** An SSE message once `JSON.parse` has read it, by its `type`. */
  datatype Message =
    | Unparseable
    | RelayMessage(boardId: string, state: string)
    | LockMessage(equipmentId: string, info: LockInfo)
    | OtherType

  /** `getBoardState`: the stored string, or the all-off default when it is missing or empty. */
  function GetBoardState(cs: ClientState, boardId: string): (s: string)
    ensures boardId in cs.states && cs.states[boardId] != "" ==> s == cs.states[boardId]
    ensures !(boardId in cs.states && cs.states[boardId] != "") ==> s == DefaultBoardState
    ensures s != ""
  {
    if boardId in cs.states && cs.states[boardId] != "" then cs.states[boardId] else DefaultBoardState
  }

  /** `getRelayState`: the relay's character in the board state is `'1'`. */
  function GetRelayState(cs: ClientState, boardId: string, relayIndex: int): (on: bool)
    ensures on <==> 0 <= relayIndex < |GetBoardState(cs, boardId)| && GetBoardState(cs, boardId)[relayIndex] == '1'
  {
    RelayOn(GetBoardState(cs, boardId), relayIndex)
  }

  /** `isBoardConnected`: `false` for a board never heard of. */
  function IsBoardConnected(cs: ClientState, boardId: string): (b: bool)
    ensures boardId !in cs.connections ==> !b
    ensures boardId in cs.connections ==> b == cs.connections[boardId]
  {
    if boardId in cs.connections then cs.connections[boardId] else false
  }

  /** `getLockState`: `null` for equipment without an entry. */
  function GetLockState(cs: ClientState, equipmentId: string): (r: Option<LockInfo>)
    ensures r.Some? <==> equipmentId in cs.locks
    ensures r.Some? ==> r.value == cs.locks[equipmentId]
  {
    if equipmentId in cs.locks then Some(cs.locks[equipmentId]) else None
  }

  /**
   * `onmessage`: a relay message stores the board's state and marks the
   * board connected; a lock message replaces the equipment's lock entry;
   * anything else, parse failures included, changes nothing.
   */
  function OnMessage(cs: ClientState, m: Message): (r: ClientState)
    ensures m.RelayMessage? ==>
      && m.boardId in r.states && r.states[m.boardId] == m.state
      && IsBoardConnected(r, m.boardId)
      && r.locks == cs.locks
      && (forall b :: b != m.boardId ==> GetBoardState(r, b) == GetBoardState(cs, b) && IsBoardConnected(r, b) == IsBoardConnected(cs, b))
    ensures m.LockMessage? ==>
      && GetLockState(r, m.equipmentId) == Some(m.info)
      && r.states == cs.states && r.connections == cs.connections
      && (forall e :: e != m.equipmentId ==> GetLockState(r, e) == GetLockState(cs, e))
    ensures m.Unparseable? || m.OtherType? ==> r == cs
  {
    match m
    case RelayMessage(boardId, state) =>
      cs.(states := cs.states[boardId := state], connections := cs.connections[boardId := true])
    case LockMessage(equipmentId, info) =>
      cs.(locks := cs.locks[equipmentId := info])
    case _ => cs
  }

  /**
   * `updateLocalState`: flip one relay of the board's state as currently
   * shown (the default when there is none), before the server confirms.
   */
  function UpdateLocalState(cs: ClientState, boardId: string, relayIndex: int): (r: ClientState)
    ensures r.connections == cs.connections && r.locks == cs.locks
    ensures forall b :: b != boardId ==> GetBoardState(r, b) == GetBoardState(cs, b)
    ensures 0 <= relayIndex < |GetBoardState(cs, boardId)| ==>
      && |GetBoardState(r, boardId)| == |GetBoardState(cs, boardId)|
      && GetBoardState(r, boardId)[relayIndex] == FlipChar(GetBoardState(cs, boardId)[relayIndex])
      && (forall j :: 0 <= j < |GetBoardState(cs, boardId)| && j != relayIndex ==>
            GetBoardState(r, boardId)[j] == GetBoardState(cs, boardId)[j])
    ensures relayIndex < 0 ==> GetBoardState(r, boardId) == GetBoardState(cs, boardId)
    ensures relayIndex >= |GetBoardState(cs, boardId)| ==> GetBoardState(r, boardId) == GetBoardState(cs, boardId) + "1"
  {
    cs.(states := cs.states[boardId := FlipAt(GetBoardState(cs, boardId), relayIndex)])
  }

  /** `updateLocalLock`: overwrite one equipment's lock entry. */
  function UpdateLocalLock(cs: ClientState, equipmentId: string, info: LockInfo): (r: ClientState)
    ensures GetLockState(r, equipmentId) == Some(info)
    ensures forall e :: e != equipmentId ==> GetLockState(r, e) == GetLockState(cs, e)
    ensures r.states == cs.states && r.connections == cs.connections
  {
    cs.(locks := cs.locks[equipmentId := info])
  }

  /**
   * Flipping a `'0'`/`'1'` relay twice, the rollback of a rejected toggle,
   * shows the board exactly as before, and every relay reads as before.
   */
  lemma RollbackRestoresView(cs: ClientState, boardId: string, relayIndex: int)
    requires 0 <= relayIndex < |GetBoardState(cs, boardId)| && IsBit(GetBoardState(cs, boardId)[relayIndex])
    ensures var back := UpdateLocalState(UpdateLocalState(cs, boardId, relayIndex), boardId, relayIndex);
      && (forall b :: GetBoardState(back, b) == GetBoardState(cs, b))
      && (forall b, j :: GetRelayState(back, b, j) == GetRelayState(cs, b, j))
  {
    var once := UpdateLocalState(cs, boardId, relayIndex);
    assert GetBoardState(once, boardId) == FlipAt(GetBoardState(cs, boardId), relayIndex);
    FlipTwiceRestores(GetBoardState(cs, boardId), relayIndex);
  }

  /** The server's relay message overrides an optimistic flip: the flip leaves no trace. */
  lemma ServerStateOverridesOptimisticFlip(cs: ClientState, boardId: string, relayIndex: int, state: string)
    ensures OnMessage(UpdateLocalState(cs, boardId, relayIndex), RelayMessage(boardId, state)).states
         == OnMessage(cs, RelayMessage(boardId, state)).states
  {
  }

  /**
   * The optimistic lock update is exactly what the server's echo of the same
   * lock change does, so the echo leaves the view as the update made it.
   */
  lemma LocalLockMatchesEcho(cs: ClientState, equipmentId: string, info: LockInfo)
    ensures UpdateLocalLock(cs, equipmentId, info) == OnMessage(cs, LockMessage(equipmentId, info))
    ensures OnMessage(UpdateLocalLock(cs, equipmentId, info), LockMessage(equipmentId, info)) == UpdateLocalLock(cs, equipmentId, info)
  {
  }

  // ---------------------------------------------------------------------------
  // From the server's stream to the client's state

  /** What `JSON.parse` makes of a frame the events route sends. */
  function MessageOf(p: EventsRoute.Payload): (m: Message)
    ensures p.RelayPayload? ==> m == RelayMessage(p.boardId, p.state)
    ensures p.LockPayload? ==> m == LockMessage(p.equipmentId, p.info)
  {
    match p
    case RelayPayload(boardId, state) => RelayMessage(boardId, state)
    case LockPayload(equipmentId, info) => LockMessage(equipmentId, info)
  }

  /** The client consumes a stream: heartbeat comments raise no message. */
  function Receive(cs: ClientState, chunks: seq<EventsRoute.Chunk>): ClientState
    decreases |chunks|
  {
    if |chunks| == 0 then cs
    else
      var cs1 := if chunks[0].Data? then OnMessage(cs, MessageOf(chunks[0].payload)) else cs;
      Receive(cs1, chunks[1..])
  }

  predicate DistinctIds(boards: seq<EventsRoute.BoardRow>) {
    forall i, j :: 0 <= i < j < |boards| ==> boards[i].id != boards[j].id
  }

  lemma {:induction false} SnapshotLeavesOthers(cs: ClientState, boards: seq<EventsRoute.BoardRow>, x: string)
    requires forall i :: 0 <= i < |boards| ==> boards[i].id != x
    ensures var r := Receive(cs, EventsRoute.BoardFrames(boards));
      (x in r.states <==> x in cs.states) && (x in cs.states ==> r.states[x] == cs.states[x])
      && (x in r.connections <==> x in cs.connections) && (x in cs.connections ==> r.connections[x] == cs.connections[x])
    decreases |boards|
  {
    if |boards| > 0 {
      var cs1 := OnMessage(cs, RelayMessage(boards[0].id, boards[0].relayState));
      SnapshotLeavesOthers(cs1, boards[1..], x);
    }
  }

  /**
   * After the relay snapshot of a stream, a client shows every board with
   * the state the server persisted for it, and as connected.
   */
  lemma {:induction false} SnapshotFillsStates(cs: ClientState, boards: seq<EventsRoute.BoardRow>)
    requires DistinctIds(boards)
    ensures var r := Receive(cs, EventsRoute.BoardFrames(boards));
      forall i :: 0 <= i < |boards| ==>
        && boards[i].id in r.states && r.states[boards[i].id] == boards[i].relayState
        && IsBoardConnected(r, boards[i].id)
    decreases |boards|
  {
    if |boards| > 0 {
      var cs1 := OnMessage(cs, RelayMessage(boards[0].id, boards[0].relayState));
      var rest := boards[1..];
      assert EventsRoute.BoardFrames(boards)[1..] == EventsRoute.BoardFrames(rest);
      assert Receive(cs, EventsRoute.BoardFrames(boards)) == Receive(cs1, EventsRoute.BoardFrames(rest));
      SnapshotFillsStates(cs1, rest);
      SnapshotLeavesOthers(cs1, rest, boards[0].id);
      var r := Receive(cs1, EventsRoute.BoardFrames(rest));
      forall i | 0 <= i < |boards|
        ensures boards[i].id in r.states && r.states[boards[i].id] == boards[i].relayState && IsBoardConnected(r, boards[i].id)
      {
        if i > 0 {
          assert boards[i] == rest[i - 1];
        }
      }
    }
  }
}

=== FILE: devantech.dfy ===
/**
 * Decoding of the Devantech board's `index.xml` status page into a relay
 * state string. For relay `n` the source runs the regular expression
 * `<Rly{n}>(\d)</Rly{n}>` over the whole page and keeps the digit of the
 * leftmost match, or `'0'` when there is none; a missing or malformed tag is
 * never an error.
 */
module Devantech {
  import opened Wrappers
  import opened Text

  function OpenTag(n: nat): string {
    "<Rly" + NatToString(n) + ">"
  }

  function CloseTag(n: nat): string {
    "</Rly" + NatToString(n) + ">"
  }

  /** The page holds `<Rly{n}>D</Rly{n}>`, with D one decimal digit, starting at `p`. */
  predicate MatchAt(xml: string, p: nat, n: nat) {
    var o := OpenTag(n);
    var c := CloseTag(n);
    && p + |o| + 1 + |c| <= |xml|
    && xml[p..p + |o|] == o
    && IsDigit(xml[p + |o|])
    && xml[p + |o| + 1..p + |o| + 1 + |c|] == c
  }

  /** `p` is where the leftmost match of relay `n`'s pattern starts. */
  ghost predicate IsFirstMatch(xml: string, p: nat, n: nat) {
    MatchAt(xml, p, n) && forall q: nat :: q < p ==> !MatchAt(xml, q, n)
  }

  /** The page holds no well-formed tag for relay `n`. */
  ghost predicate NoMatch(xml: string, n: nat) {
    forall p: nat :: !MatchAt(xml, p, n)
  }

  /** Leftmost-match search from position `from`, as a regular expression engine scans. */
  function FindFrom(xml: string, n: nat, from: nat): (r: Option<nat>)
    ensures r.Some? ==> from <= r.value && MatchAt(xml, r.value, n)
    ensures r.Some? ==> forall q: nat :: from <= q < r.value ==> !MatchAt(xml, q, n)
    ensures r.None? ==> forall q: nat :: from <= q ==> !MatchAt(xml, q, n)
    decreases |xml| - from
  {
    if from + |OpenTag(n)| + 1 + |CloseTag(n)| > |xml| then None
    else if MatchAt(xml, from, n) then Some(from)
    else FindFrom(xml, n, from + 1)
  }

  /** The character the parser records for relay `n`. */
  function RelayDigit(xml: string, n: nat): char {
    match FindFrom(xml, n, 0)
    case Some(p) => xml[p + |OpenTag(n)|]
    case None => '0'
  }

  lemma FirstMatchIsFound(xml: string, p: nat, n: nat)
    requires IsFirstMatch(xml, p, n)
    ensures FindFrom(xml, n, 0) == Some(p)
  {
  }

  lemma FirstMatchesAreFound(xml: string)
    ensures forall n: nat, p: nat :: IsFirstMatch(xml, p, n) ==> RelayDigit(xml, n) == xml[p + |OpenTag(n)|]
  {
    forall n: nat, p: nat | IsFirstMatch(xml, p, n)
      ensures RelayDigit(xml, n) == xml[p + |OpenTag(n)|]
    {
      FirstMatchIsFound(xml, p, n);
    }
  }

  /**
   * `parseDevantechXml(xml, totalRelays)`: exactly one digit per relay
   * (none when `totalRelays` is not positive, as the loop never runs), the
   * digit of the leftmost well-formed tag, `'0'` when the tag is missing.
   */
  function ParseDevantechXml(xml: string, totalRelays: int): (r: string)
    ensures |r| == if totalRelays < 0 then 0 else totalRelays
    ensures AllDigits(r)
    ensures forall n: nat, p: nat :: 1 <= n <= |r| && IsFirstMatch(xml, p, n) ==> r[n - 1] == xml[p + |OpenTag(n)|]
    ensures forall n: nat :: 1 <= n <= |r| && NoMatch(xml, n) ==> r[n - 1] == '0'
  {
    var n := if totalRelays < 0 then 0 else totalRelays;
    FirstMatchesAreFound(xml);
    seq(n, i requires 0 <= i < n => RelayDigit(xml, i + 1))
  }
}

=== FILE: equipment_lock.dfy ===
/**
 * The equipment lease lock (`equipment-lock.ts`). Each equipment row carries
 * `lockedById`, `lockedAt` and `lockExpiresAt`; every server action is one
 * atomic step over the rows (the source's transaction or conditional
 * `updateMany`), returning the new rows, the lock events it published and
 * its result, or the error it throws. Time is milliseconds.
 *
 * The reads decide "locked" with `lockExpiresAt > now`; the update filters
 * decide "expired" with `lockExpiresAt < now`. At `lockExpiresAt == now` the
 * two disagree. `LockEquipment` and `GetLockStatus` follow the code;
 * `LockEquipmentCorrected` and `GetLockStatusCorrected` use `<=` in the
 * filters, which is what the reads imply.
 */
module EquipmentLock {
  import opened Wrappers
  import opened Session
  import Settings
  import opened RelayEvents

  const MillisPerMinute: int := 60000

  datatype LockFields = LockFields(lockedById: Option<string>, lockedAt: Option<int>, lockExpiresAt: Option<int>)

  const NoLock: LockFields := LockFields(None, None, None)

  /** Lock fields of every equipment, and the users a `lockedBy` relation can name. */
  datatype LockDb = LockDb(equipments: map<string, LockFields>, users: map<string, UserInfo>)

  datatype LockError =
    | NotAuthenticated
    | EquipmentNotFound
    | LockedBy(email: Option<string>)   // "Equipo bloqueado por <email>"
    | RecordNotFound                    // a Prisma `update` whose filter matched no row
    | NoUnlockPermission
    | AdminOnly

  datatype Outcome<T> = Outcome(db: LockDb, events: seq<LockEvent>, value: T)

  /** The schema's intent: a holder is set exactly when both timestamps are. */
  predicate WellFormed(f: LockFields) {
    (f.lockedById.None? <==> f.lockExpiresAt.None?) && (f.lockedById.None? <==> f.lockedAt.None?)
  }

  predicate WellFormedDb(db: LockDb) {
    forall e :: e in db.equipments ==> WellFormed(db.equipments[e])
  }

  /** `lockedById !== null && lockExpiresAt !== null && lockExpiresAt > now`. */
  predicate Active(f: LockFields, now: int) {
    f.lockedById.Some? && f.lockExpiresAt.Some? && f.lockExpiresAt.value > now
  }

  /** The update filters' expiry test: `lockExpiresAt: { lt: now }`, or `lte` when `inclusive`. */
  predicate ExpiredFilter(f: LockFields, now: int, inclusive: bool) {
    f.lockExpiresAt.Some? && (if inclusive then f.lockExpiresAt.value <= now else f.lockExpiresAt.value < now)
  }

  /** The `lockedBy` relation of a row. */
  function Holder(db: LockDb, f: LockFields): Option<UserInfo> {
    if f.lockedById.Some? && f.lockedById.value in db.users then Some(db.users[f.lockedById.value]) else None
  }

  /** `lockedBy?.email`. */
  function HolderEmail(db: LockDb, f: LockFields): Option<string> {
    match Holder(db, f)
    case Some(u) => Some(u.email)
    case None => None
  }

  function UserInfoOf(db: LockDb, id: string): Option<UserInfo> {
    if id in db.users then Some(db.users[id]) else None
  }

  /** The `OR` filter of the lock update. */
  predicate LockFilter(f: LockFields, userId: string, isAdmin: bool, now: int, inclusive: bool) {
    || f.lockedById.None?
    || f.lockedById == Some(userId)
    || ExpiredFilter(f, now, inclusive)
    || (isAdmin && f.lockedById.Some?)
  }

  datatype Grant = Grant(lockedBy: Option<UserInfo>, lockedAt: int, lockExpiresAt: int)

  function ExpiryFrom(settings: Settings.Settings, now: int): int {
    now + settings.lockTimeoutMins * MillisPerMinute
  }

  /** `lockEquipment`'s transaction, with the expiry filter as a parameter. */
  function LockWith(db: LockDb, session: Session, settings: Settings.Settings, eqId: string, now: int, inclusive: bool): Result<Outcome<Grant>, LockError> {
    if !HasUserId(session) then Err(NotAuthenticated)
    else if eqId !in db.equipments then Err(EquipmentNotFound)
    else
      var user := session.value;
      var f := db.equipments[eqId];
      if Active(f, now) && f.lockedById != Some(user.id) && !user.isAdmin then Err(LockedBy(HolderEmail(db, f)))
      else if !LockFilter(f, user.id, user.isAdmin, now, inclusive) then Err(RecordNotFound)
      else
        var expiresAt := ExpiryFrom(settings, now);
        var holder := UserInfoOf(db, user.id);
        var f' := LockFields(Some(user.id), Some(now), Some(expiresAt));
        Ok(Outcome(db.(equipments := db.equipments[eqId := f']),
                   [LockEvent(eqId, LockInfo(Some(user.id), holder, Some(expiresAt)))],
                   Grant(holder, now, expiresAt)))
  }

  /**
   * `lockEquipment` as written. It succeeds exactly when the update filter
   * matches, and then the caller holds the lock from `now` for the configured
   * number of minutes and one lock event announces it. A non-admin facing
   * another user's active lock gets `LockedBy` with that user's email.
   */
  function LockEquipment(db: LockDb, session: Session, settings: Settings.Settings, eqId: string, now: int): (r: Result<Outcome<Grant>, LockError>)
    ensures !HasUserId(session) ==> r == Err(NotAuthenticated)
    ensures HasUserId(session) && eqId !in db.equipments ==> r == Err(EquipmentNotFound)
    ensures r.Ok? <==>
      && HasUserId(session) && eqId in db.equipments
      && LockFilter(db.equipments[eqId], session.value.id, session.value.isAdmin, now, false)
    ensures HasUserId(session) && eqId in db.equipments && !session.value.isAdmin
      && Active(db.equipments[eqId], now) && db.equipments[eqId].lockedById != Some(session.value.id)
      ==> r == Err(LockedBy(HolderEmail(db, db.equipments[eqId])))
    ensures r.Ok? ==>
      var exp := now + settings.lockTimeoutMins * 60000;
      && r.value.db.users == db.users
      && r.value.db.equipments == db.equipments[eqId := LockFields(Some(session.value.id), Some(now), Some(exp))]
      && r.value.events == [LockEvent(eqId, LockInfo(Some(session.value.id), UserInfoOf(db, session.value.id), Some(exp)))]
      && r.value.value == Grant(UserInfoOf(db, session.value.id), now, exp)
  {
    LockWith(db, session, settings, eqId, now, false)
  }

  /**
   * The lock with the expiry filter made inclusive. On a well-formed row it
   * succeeds exactly when the read-side check lets the caller through: the row
   * is not actively locked, or the caller holds it, or the caller is an admin.
   */
  function LockEquipmentCorrected(db: LockDb, session: Session, settings: Settings.Settings, eqId: string, now: int): (r: Result<Outcome<Grant>, LockError>)
    ensures HasUserId(session) && eqId in db.equipments && WellFormed(db.equipments[eqId]) ==>
      (r.Ok? <==> (!Active(db.equipments[eqId], now) || db.equipments[eqId].lockedById == Some(session.value.id) || session.value.isAdmin))
    ensures r.Ok? ==> HasUserId(session) && eqId in db.equipments
    ensures r.Ok? ==> r.value.db.equipments == db.equipments[eqId := LockFields(Some(session.value.id), Some(now), Some(now + settings.lockTimeoutMins * 60000))]
  {
    LockWith(db, session, settings, eqId, now, true)
  }

  /**
   * The as-written lock rejects a lock whose expiry is exactly now, although
   * the read-side check has just judged it expired: the filter tests `< now`,
   * so the update matches no row and Prisma throws.
   */
  lemma LockAtExpiryInstantFails(db: LockDb, session: Session, settings: Settings.Settings, eqId: string, now: int, holder: string)
    requires HasUserId(session) && !session.value.isAdmin && holder != session.value.id
    requires eqId in db.equipments && db.equipments[eqId] == LockFields(Some(holder), Some(now - 1), Some(now))
    ensures !Active(db.equipments[eqId], now)
    ensures LockEquipment(db, session, settings, eqId, now) == Err(RecordNotFound)
    ensures LockEquipmentCorrected(db, session, settings, eqId, now).Ok?
  {
  }

  /** The holder locking again succeeds and restarts the lease from now. */
  lemma RelockByOwnerExtends(db: LockDb, session: Session, settings: Settings.Settings, eqId: string, now: int)
    requires HasUserId(session) && eqId in db.equipments && db.equipments[eqId].lockedById == Some(session.value.id)
    ensures LockEquipment(db, session, settings, eqId, now).Ok?
    ensures LockEquipment(db, session, settings, eqId, now).value.db.equipments[eqId].lockExpiresAt == Some(now + settings.lockTimeoutMins * 60000)
  {
  }

  /** An admin's lock succeeds over any holder, active or not. */
  lemma AdminLockPreempts(db: LockDb, session: Session, settings: Settings.Settings, eqId: string, now: int)
    requires HasUserId(session) && session.value.isAdmin && eqId in db.equipments
    ensures LockEquipment(db, session, settings, eqId, now).Ok?
  {
  }

  /**
   * Two users racing for a free equipment: whichever transaction commits first
   * holds the lock, and the other, not being an admin, is told who holds it.
   */
  lemma RacingLocksHaveOneWinner(db: LockDb, a: User, b: User, settings: Settings.Settings, eqId: string, now: int, later: int)
    requires a.id != "" && b.id != "" && a.id != b.id && !b.isAdmin
    requires eqId in db.equipments && db.equipments[eqId].lockedById.None?
    requires settings.lockTimeoutMins > 0 && now <= later < now + settings.lockTimeoutMins * 60000
    ensures LockEquipment(db, Some(a), settings, eqId, now).Ok?
    ensures var db' := LockEquipment(db, Some(a), settings, eqId, now).value.db;
      LockEquipment(db', Some(b), settings, eqId, later) == Err(LockedBy(HolderEmail(db', db'.equipments[eqId])))
  {
  }

  /**
   * `unlockEquipment`: one conditional update that clears the three fields if
   * the caller holds the lock, or is an admin and someone holds it. Zero rows
   * updated is an error, and then nothing changed.
   */
  function UnlockEquipment(db: LockDb, session: Session, eqId: string): (r: Result<Outcome<()>, LockError>)
    ensures !HasUserId(session) ==> r == Err(NotAuthenticated)
    ensures r.Ok? <==>
      && HasUserId(session) && eqId in db.equipments
      && (|| db.equipments[eqId].lockedById == Some(session.value.id)
          || (session.value.isAdmin && db.equipments[eqId].lockedById.Some?))
    ensures HasUserId(session) && r.Err? ==> r.error == NoUnlockPermission
    ensures r.Ok? ==>
      && r.value.db == db.(equipments := db.equipments[eqId := NoLock])
      && r.value.events == [LockEvent(eqId, Cleared)]
  {
    if !HasUserId(session) then Err(NotAuthenticated)
    else
      var user := session.value;
      if eqId in db.equipments
        && (db.equipments[eqId].lockedById == Some(user.id) || (user.isAdmin && db.equipments[eqId].lockedById.Some?))
      then Ok(Outcome(db.(equipments := db.equipments[eqId := NoLock]), [LockEvent(eqId, Cleared)], ()))
      else Err(NoUnlockPermission)
  }

  datatype Renewal = Renewal(renewed: bool, lockExpiresAt: Option<int>)

  /**
   * `renewLock`: only the holder's row is touched, and only its expiry, which
   * restarts from now; expiry itself is not checked. Anyone else gets
   * `renewed: false`, no error, no change and no event.
   */
  function RenewLock(db: LockDb, session: Session, settings: Settings.Settings, eqId: string, now: int): (r: Result<Outcome<Renewal>, LockError>)
    ensures r.Err? <==> !HasUserId(session)
    ensures r.Ok? ==> (r.value.value.renewed <==> eqId in db.equipments && db.equipments[eqId].lockedById == Some(session.value.id))
    ensures r.Ok? && !r.value.value.renewed ==> r.value.db == db && r.value.events == [] && r.value.value.lockExpiresAt.None?
    ensures r.Ok? && r.value.value.renewed ==>
      var f := db.equipments[eqId];
      var exp := now + settings.lockTimeoutMins * 60000;
      && r.value.db == db.(equipments := db.equipments[eqId := f.(lockExpiresAt := Some(exp))])
      && r.value.events == [LockEvent(eqId, LockInfo(f.lockedById, Holder(db, f), Some(exp)))]
      && r.value.value.lockExpiresAt == Some(exp)
  {
    if !HasUserId(session) then Err(NotAuthenticated)
    else if eqId in db.equipments && db.equipments[eqId].lockedById == Some(session.value.id) then
      var f := db.equipments[eqId];
      var exp := ExpiryFrom(settings, now);
      Ok(Outcome(db.(equipments := db.equipments[eqId := f.(lockExpiresAt := Some(exp))]),
                 [LockEvent(eqId, LockInfo(f.lockedById, Holder(db, f), Some(exp)))],
                 Renewal(true, Some(exp))))
    else Ok(Outcome(db, [], Renewal(false, None)))
  }

  /** Since renewal does not look at the expiry, a holder can revive a lapsed lock not yet cleared. */
  lemma RenewRevivesLapsedLock(db: LockDb, session: Session, settings: Settings.Settings, eqId: string, now: int)
    requires HasUserId(session) && settings.lockTimeoutMins > 0
    requires eqId in db.equipments && db.equipments[eqId].lockedById == Some(session.value.id)
    requires !Active(db.equipments[eqId], now)
    ensures RenewLock(db, session, settings, eqId, now).value.value.renewed
    ensures Active(RenewLock(db, session, settings, eqId, now).value.db.equipments[eqId], now)
  {
  }

  datatype LockStatus = LockStatus(
    isLocked: bool,
    lockedBy: Option<UserInfo>,
    lockExpiresAt: Option<int>,
    canControl: bool,
    isOwner: bool,
    warningBeforeMins: int)

  /** `getLockStatus`, with the lazy-clear filter as a parameter. */
  function StatusWith(db: LockDb, session: Session, settings: Settings.Settings, eqId: string, now: int, inclusive: bool): Result<Outcome<LockStatus>, LockError> {
    if eqId !in db.equipments then Err(EquipmentNotFound)
    else
      var f := db.equipments[eqId];
      var isLocked := Active(f, now);
      if f.lockedById.Some? && f.lockedById.value != "" && !isLocked then
        var db' := if ExpiredFilter(f, now, inclusive) then db.(equipments := db.equipments[eqId := NoLock]) else db;
        Ok(Outcome(db', [LockEvent(eqId, Cleared)], LockStatus(false, None, None, true, false, settings.warningBeforeMins)))
      else
        var isOwner := f.lockedById.Some? && session.Some? && f.lockedById.value == session.value.id;
        var canControl := !isLocked || isOwner || IsAdmin(session);
        Ok(Outcome(db, [], LockStatus(isLocked,
                                      if isLocked then Holder(db, f) else None,
                                      if isLocked then f.lockExpiresAt else None,
                                      canControl, isOwner, settings.warningBeforeMins)))
  }

  /**
   * `getLockStatus` as written. A held but lapsed lock is reported free and
   * controllable, announced as cleared, and cleared in the store only where
   * its expiry is strictly before now. Otherwise nothing changes, and the
   * holder and expiry are reported only while the lock is active.
   */
  function GetLockStatus(db: LockDb, session: Session, settings: Settings.Settings, eqId: string, now: int): (r: Result<Outcome<LockStatus>, LockError>)
    ensures r.Err? <==> eqId !in db.equipments
    ensures r.Ok? ==>
      var f := db.equipments[eqId];
      var st := r.value.value;
      && (st.isLocked <==> Active(f, now))
      && st.canControl == (!Active(f, now) || st.isOwner || IsAdmin(session))
      && (st.lockedBy.Some? || st.lockExpiresAt.Some? ==> Active(f, now))
      && (Active(f, now) ==> st.lockExpiresAt == f.lockExpiresAt && st.lockedBy == Holder(db, f))
      && (st.isOwner ==> f.lockedById.Some? && session.Some? && f.lockedById.value == session.value.id)
      && st.warningBeforeMins == settings.warningBeforeMins
    ensures (&& r.Ok? && db.equipments[eqId].lockedById.Some? && db.equipments[eqId].lockedById.value != ""
             && !Active(db.equipments[eqId], now)) ==>
      && !r.value.value.isOwner && r.value.value.canControl
      && r.value.events == [LockEvent(eqId, Cleared)]
      && eqId in r.value.db.equipments
      && (r.value.db.equipments[eqId] == NoLock <==> ExpiredFilter(db.equipments[eqId], now, false))
      && (ExpiredFilter(db.equipments[eqId], now, false) ==> r.value.db == db.(equipments := db.equipments[eqId := NoLock]))
      && (!ExpiredFilter(db.equipments[eqId], now, false) ==> r.value.db == db)
    ensures (&& r.Ok?
             && !(db.equipments[eqId].lockedById.Some? && db.equipments[eqId].lockedById.value != "" && !Active(db.equipments[eqId], now)))
      ==> && r.value.db == db && r.value.events == []
          && (r.value.value.isOwner <==>
                (db.equipments[eqId].lockedById.Some? && session.Some? && db.equipments[eqId].lockedById.value == session.value.id))
  {
    StatusWith(db, session, settings, eqId, now, false)
  }

  /** The status read with an inclusive lazy-clear filter: a lapsed well-formed lock is always cleared. */
  function GetLockStatusCorrected(db: LockDb, session: Session, settings: Settings.Settings, eqId: string, now: int): (r: Result<Outcome<LockStatus>, LockError>)
    ensures r.Err? <==> eqId !in db.equipments
    ensures (&& r.Ok? && WellFormed(db.equipments[eqId]) && db.equipments[eqId].lockedById.Some? && db.equipments[eqId].lockedById.value != ""
             && !Active(db.equipments[eqId], now)) ==>
      eqId in r.value.db.equipments && r.value.db.equipments[eqId] == NoLock
    ensures r.Ok? ==> (r.value.value.isLocked <==> Active(db.equipments[eqId], now))
  {
    StatusWith(db, session, settings, eqId, now, true)
  }

  /**
   * As written, a status read at the very millisecond a lock lapses announces
   * "cleared" but leaves the row held, so the next read announces it again.
   */
  lemma LazyClearAtExpiryInstantRepeats(db: LockDb, session: Session, settings: Settings.Settings, eqId: string, now: int, holder: string)
    requires holder != "" && eqId in db.equipments && db.equipments[eqId] == LockFields(Some(holder), Some(now - 1), Some(now))
    ensures var first := GetLockStatus(db, session, settings, eqId, now).value;
      && first.events == [LockEvent(eqId, Cleared)]
      && first.db == db
      && GetLockStatus(first.db, session, settings, eqId, now + 1).value.events == [LockEvent(eqId, Cleared)]
  {
  }

  /** With the inclusive filter the cleared event is published once: the next read finds nothing to clear. */
  lemma CorrectedLazyClearPublishesOnce(db: LockDb, session: Session, settings: Settings.Settings, eqId: string, now: int, later: int)
    requires eqId in db.equipments && WellFormed(db.equipments[eqId])
    requires GetLockStatusCorrected(db, session, settings, eqId, now).value.events != []
    ensures var first := GetLockStatusCorrected(db, session, settings, eqId, now).value;
      GetLockStatusCorrected(first.db, session, settings, eqId, later).value.events == []
  {
  }

  /** `forceUnlockEquipment`: admins only, checked first; then an unconditional clear of an existing row. */
  function ForceUnlockEquipment(db: LockDb, session: Session, eqId: string): (r: Result<Outcome<()>, LockError>)
    ensures !IsAdmin(session) ==> r == Err(AdminOnly)
    ensures IsAdmin(session) ==> (r.Ok? <==> eqId in db.equipments)
    ensures IsAdmin(session) && eqId !in db.equipments ==> r == Err(RecordNotFound)
    ensures r.Ok? ==>
      && r.value.db == db.(equipments := db.equipments[eqId := NoLock])
      && r.value.events == [LockEvent(eqId, Cleared)]
  {
    if !IsAdmin(session) then Err(AdminOnly)
    else if eqId !in db.equipments then Err(RecordNotFound)
    else Ok(Outcome(db.(equipments := db.equipments[eqId := NoLock]), [LockEvent(eqId, Cleared)], ()))
  }

  /** Every lock transition keeps the holder and both timestamps set or cleared together. */
  lemma TransitionsPreserveWellFormed(db: LockDb, session: Session, settings: Settings.Settings, eqId: string, now: int)
    requires WellFormedDb(db)
    ensures LockEquipment(db, session, settings, eqId, now).Ok? ==> WellFormedDb(LockEquipment(db, session, settings, eqId, now).value.db)
    ensures UnlockEquipment(db, session, eqId).Ok? ==> WellFormedDb(UnlockEquipment(db, session, eqId).value.db)
    ensures RenewLock(db, session, settings, eqId, now).Ok? ==> WellFormedDb(RenewLock(db, session, settings, eqId, now).value.db)
    ensures GetLockStatus(db, session, settings, eqId, now).Ok? ==> WellFormedDb(GetLockStatus(db, session, settings, eqId, now).value.db)
    ensures ForceUnlockEquipment(db, session, eqId).Ok? ==> WellFormedDb(ForceUnlockEquipment(db, session, eqId).value.db)
  {
  }
}

=== FILE: equipments.dfy ===
/**
 * Relay-slot allocation and visibility (`equipments.ts`). An equipment
 * occupies the inclusive relay range `[startRelay, startRelay + relayCount - 1]`
 * of one board, relays numbered from 1; ranges of different equipment on the
 * same board must not overlap.
 */
module Equipments {
  import opened Wrappers
  import opened Session

  datatype Placement = Placement(startRelay: int, relayCount: int)

  /** The last relay an equipment occupies: `startRelay + relayCount - 1`. */
  function End(p: Placement): int {
    p.startRelay + p.relayCount - 1
  }

  /** The source's overlap test: `start <= range.end && end >= range.start`. */
  predicate Overlaps(start: int, end: int, p: Placement) {
    start <= End(p) && end >= p.startRelay
  }

  /** `count` relays from `start` on overlap none of the placements. */
  predicate Free(ps: seq<Placement>, start: int, count: int) {
    forall p :: p in ps ==> !Overlaps(start, start + count - 1, p)
  }

  /** `count` relays from `start` on lie within relays `1..totalRelays`. */
  predicate Fits(totalRelays: int, start: int, count: int) {
    1 <= start && start + count - 1 <= totalRelays
  }

  /** A board with the placements of its equipment. */
  datatype SlotBoard = SlotBoard(totalRelays: int, placements: seq<Placement>)

  /** The outer loop of `findAvailableSlots` from `start` on. */
  function SlotsFrom(b: SlotBoard, count: int, start: int): (r: seq<int>)
    requires start >= 1
    ensures forall i :: 0 <= i < |r| ==> start <= r[i] && Fits(b.totalRelays, r[i], count) && Free(b.placements, r[i], count)
    ensures forall i, j :: 0 <= i < j < |r| ==> r[i] < r[j]
    ensures forall s :: start <= s && Fits(b.totalRelays, s, count) && Free(b.placements, s, count) ==> s in r
    decreases b.totalRelays - count + 2 - start
  {
    if start > b.totalRelays - count + 1 then []
    else if Free(b.placements, start, count) then [start] + SlotsFrom(b, count, start + 1)
    else SlotsFrom(b, count, start + 1)
  }

  /**
   * `findAvailableSlots`: nothing for an unknown board; otherwise, in strictly
   * ascending order, exactly the starts whose range fits on the board and
   * overlaps no equipment.
   */
  function FindAvailableSlots(board: Option<SlotBoard>, count: int): (r: seq<int>)
    ensures board.None? ==> r == []
    ensures board.Some? ==> forall i :: 0 <= i < |r| ==>
      Fits(board.value.totalRelays, r[i], count) && Free(board.value.placements, r[i], count)
    ensures forall i, j :: 0 <= i < j < |r| ==> r[i] < r[j]
    ensures board.Some? ==> forall s :: Fits(board.value.totalRelays, s, count) && Free(board.value.placements, s, count) ==> s in r
  {
    match board
    case None => []
    case Some(b) => SlotsFrom(b, count, 1)
  }

  datatype EquipmentError =
    | NotAdmin
    | TypeNotFound
    | BoardNotFound
    | EquipmentNotFound
    | NoSpace(relayCount: int)
    | SlotUnavailable
    | DoesNotFit
    | SlotOccupied
    | NotAuthorized

  /** A JavaScript number that is truthy: given and not zero. */
  predicate Given(n: Option<int>) {
    n.Some? && n.value != 0
  }

  /**
   * The start relay `createEquipment` assigns: admins only, the type and the
   * board must exist; without a requested start, the lowest free slot or an
   * error when there is none; with one, it must be among the free slots.
   */
  function CreateStartRelay(session: Session, typeRelayCount: Option<int>, board: Option<SlotBoard>, requested: Option<int>): (r: Result<int, EquipmentError>)
    ensures !IsAdmin(session) ==> r == Err(NotAdmin)
    ensures r.Ok? ==>
      && typeRelayCount.Some? && board.Some?
      && Fits(board.value.totalRelays, r.value, typeRelayCount.value)
      && Free(board.value.placements, r.value, typeRelayCount.value)
    ensures r.Ok? && !Given(requested) ==> forall s ::
      Fits(board.value.totalRelays, s, typeRelayCount.value) && Free(board.value.placements, s, typeRelayCount.value) ==> r.value <= s
    ensures IsAdmin(session) && typeRelayCount.None? ==> r == Err(TypeNotFound)
    ensures IsAdmin(session) && typeRelayCount.Some? && board.None? ==> r == Err(BoardNotFound)
    ensures IsAdmin(session) && typeRelayCount.Some? && board.Some? && !Given(requested) ==>
      && (r.Ok? <==> FindAvailableSlots(board, typeRelayCount.value) != [])
      && (r.Err? ==> r.error == NoSpace(typeRelayCount.value))
    ensures IsAdmin(session) && typeRelayCount.Some? && board.Some? && Given(requested) ==>
      && (r.Ok? <==> Fits(board.value.totalRelays, requested.value, typeRelayCount.value)
                     && Free(board.value.placements, requested.value, typeRelayCount.value))
      && (r.Ok? ==> r.value == requested.value)
  {
    if !IsAdmin(session) then Err(NotAdmin)
    else if typeRelayCount.None? then Err(TypeNotFound)
    else if board.None? then Err(BoardNotFound)
    else
      var count := typeRelayCount.value;
      var slots := FindAvailableSlots(board, count);
      if !Given(requested) then
        if |slots| == 0 then Err(NoSpace(count)) else Ok(slots[0])
      else if requested.value in slots then Ok(requested.value)
      else Err(SlotUnavailable)
  }

  /** An equipment row: its id, where it sits, and the ids of the roles that may see it. */
  datatype Equipment = Equipment(id: string, placement: Placement, roles: set<string>)

  /** No equipment other than `self` overlaps `count` relays from `start`. */
  predicate FreeExcept(eqs: seq<Equipment>, self: string, start: int, count: int) {
    forall e :: e in eqs && e.id != self ==> !Overlaps(start, start + count - 1, e.placement)
  }

  /**
   * The start relay `updateEquipment` stores. A requested start different from
   * the current one is checked against the board of the equipment (`board`
   * is the row its `boardId` names, with its equipment): the range must end
   * within the board and overlap no other equipment. The lower bound is not
   * checked. Without a requested start the old one stays.
   */
  function UpdateStartRelay(session: Session, existing: Option<Equipment>, board: Option<(int, seq<Equipment>)>, requested: Option<int>): (r: Result<int, EquipmentError>)
    ensures !IsAdmin(session) ==> r == Err(NotAdmin)
    ensures IsAdmin(session) && existing.None? ==> r == Err(EquipmentNotFound)
    ensures r.Ok? && !Given(requested) ==> r.value == existing.value.placement.startRelay
    ensures r.Ok? && Given(requested) ==> r.value == requested.value
    ensures IsAdmin(session) && existing.Some? && !(Given(requested) && requested.value != existing.value.placement.startRelay) ==> r.Ok?
    ensures IsAdmin(session) && existing.Some? && Given(requested) && requested.value != existing.value.placement.startRelay ==>
      var count := existing.value.placement.relayCount;
      (r.Ok? <==> board.Some? && requested.value + count - 1 <= board.value.0
                  && FreeExcept(board.value.1, existing.value.id, requested.value, count))
  {
    if !IsAdmin(session) then Err(NotAdmin)
    else if existing.None? then Err(EquipmentNotFound)
    else
      var e := existing.value;
      if Given(requested) && requested.value != e.placement.startRelay then
        if board.None? then Err(BoardNotFound)
        else
          var newEnd := requested.value + e.placement.relayCount - 1;
          if newEnd > board.value.0 then Err(DoesNotFit)
          else if !FreeExcept(board.value.1, e.id, requested.value, e.placement.relayCount) then Err(SlotOccupied)
          else Ok(requested.value)
      else Ok(if Given(requested) then requested.value else e.placement.startRelay)
  }

  /** The equipment's own range does not block its move, e.g. a shift by one relay. */
  lemma MoveMayOverlapOwnRange(admin: User)
    requires admin.isAdmin
    ensures var self := Equipment("a", Placement(1, 2), {});
      UpdateStartRelay(Some(admin), Some(self), Some((8, [self])), Some(2)) == Ok(2)
  {
  }

  /**
   * Nothing stops a start below relay 1: the update accepts relay -3 on a
   * board where the moved equipment is alone. The stored range then lies
   * partly before relay 1, which `createEquipment` never produces and which
   * breaks the consistency (`Placed`) the free-space computation relies on.
   */
  lemma MoveBelowRelayOneAccepted(admin: User)
    requires admin.isAdmin
    ensures var self := Equipment("a", Placement(1, 2), {});
      UpdateStartRelay(Some(admin), Some(self), Some((8, [self])), Some(-3)) == Ok(-3)
  {
  }

  /**
   * The move check with the lower bound `createEquipment` applies: a changed
   * start below relay 1 is refused as not fitting; everything else is decided
   * as in `updateEquipment`.
   */
  function UpdateStartRelayCorrected(session: Session, existing: Option<Equipment>, board: Option<(int, seq<Equipment>)>, requested: Option<int>): (r: Result<int, EquipmentError>)
    ensures IsAdmin(session) && existing.Some? && Given(requested) && requested.value != existing.value.placement.startRelay ==>
      var count := existing.value.placement.relayCount;
      (r.Ok? <==> board.Some? && Fits(board.value.0, requested.value, count)
                  && FreeExcept(board.value.1, existing.value.id, requested.value, count))
    ensures !(Given(requested) && requested.value < 1 && board.Some?) ==> r == UpdateStartRelay(session, existing, board, requested)
  {
    if IsAdmin(session) && existing.Some? && Given(requested) && requested.value != existing.value.placement.startRelay
       && board.Some? && requested.value < 1
    then Err(DoesNotFit)
    else UpdateStartRelay(session, existing, board, requested)
  }

  /** An equipment that sat within its board still does after a corrected move. */
  lemma CorrectedMoveStaysOnBoard(session: Session, existing: Option<Equipment>, board: Option<(int, seq<Equipment>)>, requested: Option<int>)
    requires existing.Some? && board.Some?
    requires Fits(board.value.0, existing.value.placement.startRelay, existing.value.placement.relayCount)
    requires UpdateStartRelayCorrected(session, existing, board, requested).Ok?
    ensures Fits(board.value.0, UpdateStartRelayCorrected(session, existing, board, requested).value, existing.value.placement.relayCount)
  {
  }

  /** The corrected check refuses the move to relay -3 that the source accepts. */
  lemma CorrectedMoveBelowRelayOneRefused(admin: User)
    requires admin.isAdmin
    ensures var self := Equipment("a", Placement(1, 2), {});
      UpdateStartRelayCorrected(Some(admin), Some(self), Some((8, [self])), Some(-3)) == Err(DoesNotFit)
  {
  }

  // ---------------------------------------------------------------------------
  // Contiguous free space (`getBoardsForEquipment`)

  predicate SortedByStart(rs: seq<Placement>) {
    forall i, j :: 0 <= i < j < |rs| ==> rs[i].startRelay <= rs[j].startRelay
  }

  /** A start no later than every start of a sorted sequence can go in front of it. */
  lemma ConsSorted(x: Placement, rest: seq<Placement>)
    requires SortedByStart(rest)
    requires forall y :: y in rest ==> x.startRelay <= y.startRelay
    ensures SortedByStart([x] + rest)
  {
    forall i, j | 0 <= i < j < |[x] + rest|
      ensures ([x] + rest)[i].startRelay <= ([x] + rest)[j].startRelay
    {
      if i == 0 {
        assert ([x] + rest)[j] == rest[j - 1] && rest[j - 1] in rest;
      }
    }
  }

  /** One step of the insertion sort behind `.sort(...)`: `p` goes before the first later start. */
  function Insert(p: Placement, rs: seq<Placement>): seq<Placement> {
    if |rs| == 0 then [p]
    else if p.startRelay <= rs[0].startRelay then [p] + rs
    else [rs[0]] + Insert(p, rs[1..])
  }

  lemma {:induction false} InsertPermutes(p: Placement, rs: seq<Placement>)
    ensures multiset(Insert(p, rs)) == multiset(rs) + multiset{p}
  {
    if |rs| > 0 && p.startRelay > rs[0].startRelay {
      assert rs == [rs[0]] + rs[1..];
      InsertPermutes(p, rs[1..]);
    }
  }

  /** Inserting into a sequence sorted by start keeps it sorted and adds exactly `p`. */
  lemma {:induction false} InsertKeepsSorted(p: Placement, rs: seq<Placement>)
    requires SortedByStart(rs)
    ensures SortedByStart(Insert(p, rs))
    ensures multiset(Insert(p, rs)) == multiset(rs) + multiset{p}
  {
    InsertPermutes(p, rs);
    if |rs| == 0 {
    } else if p.startRelay <= rs[0].startRelay {
      ConsSorted(p, rs);
    } else {
      var tail := rs[1..];
      InsertKeepsSorted(p, tail);
      var rest := Insert(p, tail);
      forall y | y in rest
        ensures rs[0].startRelay <= y.startRelay
      {
        assert y in multiset(rest);
        if y != p {
          assert y in multiset(tail);
          var j :| 0 <= j < |tail| && tail[j] == y;
          assert y == rs[j + 1];
        }
      }
      ConsSorted(rs[0], rest);
    }
  }

  /** `.sort((a, b) => a.start - b.start)`, as an insertion sort. */
  function SortByStart(rs: seq<Placement>): seq<Placement> {
    if |rs| == 0 then [] else Insert(rs[0], SortByStart(rs[1..]))
  }

  /** The sort orders the ranges by start and keeps exactly the ranges it was given. */
  lemma {:induction false} SortByStartSorts(rs: seq<Placement>)
    ensures SortedByStart(SortByStart(rs))
    ensures multiset(SortByStart(rs)) == multiset(rs)
  {
    if |rs| > 0 {
      assert rs == [rs[0]] + rs[1..];
      SortByStartSorts(rs[1..]);
      InsertKeepsSorted(rs[0], SortByStart(rs[1..]));
    }
  }

  /**
   * The gap loop: `gap = range.start - currentStart`, keep the largest, move
   * `currentStart` past the range; finally compare the gap after the last range.
   */
  function GapScan(rs: seq<Placement>, cur: int, best: int, totalRelays: int): int {
    if |rs| == 0 then
      var endGap := totalRelays - cur + 1;
      if endGap > best then endGap else best
    else
      var gap := rs[0].startRelay - cur;
      GapScan(rs[1..], End(rs[0]) + 1, if gap > best then gap else best, totalRelays)
  }

  /** `relayCount`s added up, as the `reduce` does. */
  function UsedRelays(ps: seq<Placement>): int {
    if |ps| == 0 then 0 else ps[0].relayCount + UsedRelays(ps[1..])
  }

  /** Two placements share no relay. */
  predicate Disjoint(p: Placement, q: Placement) {
    End(p) < q.startRelay || End(q) < p.startRelay
  }

  /**
   * The board is consistent: every equipment occupies at least one relay
   * inside `1..totalRelays` and two different placements share no relay.
   */
  predicate Placed(b: SlotBoard) {
    && (forall p :: p in b.placements ==> p.relayCount >= 1 && p.startRelay >= 1 && End(p) <= b.totalRelays)
    && (forall p, q :: p in b.placements && q in b.placements ==> p == q || Disjoint(p, q))
  }

  /** What the gap loop needs of the ranges still to visit. */
  predicate ScanReady(rs: seq<Placement>, cur: int, totalRelays: int) {
    && (forall p :: p in rs ==> p.relayCount >= 1 && End(p) <= totalRelays)
    && SortedByStart(rs)
    && (forall p, q :: p in rs && q in rs ==> p == q || Disjoint(p, q))
    && (|rs| > 0 ==> End(rs[0]) >= cur - 1)
  }

  /** After the first range, the rest is ready for a scan from the relay past it. */
  lemma TailReady(rs: seq<Placement>, cur: int, totalRelays: int)
    requires ScanReady(rs, cur, totalRelays) && |rs| > 0
    ensures ScanReady(rs[1..], End(rs[0]) + 1, totalRelays)
  {
    var tail := rs[1..];
    assert forall p :: p in tail ==> p in rs;
    if |tail| > 0 {
      assert tail[0] == rs[1] && tail[0] in rs;
      assert rs[0].startRelay <= tail[0].startRelay;
      assert tail[0] == rs[0] || Disjoint(rs[0], tail[0]);
    }
  }

  /** The space before the first range holds no equipment at all. */
  lemma GapBeforeFirstIsFree(rs: seq<Placement>, cur: int, totalRelays: int, k: int)
    requires ScanReady(rs, cur, totalRelays) && |rs| > 0 && k >= 1
    requires rs[0].startRelay - cur >= k
    ensures Free(rs, cur, k)
  {
    forall q | q in rs
      ensures !Overlaps(cur, cur + k - 1, q)
    {
      if q != rs[0] {
        assert Disjoint(rs[0], q);
        var j :| 0 <= j < |rs| && rs[j] == q;
        assert rs[0].startRelay <= rs[j].startRelay;
      }
    }
  }

  lemma FreeSplits(rs: seq<Placement>, s: int, k: int)
    requires |rs| > 0
    ensures Free(rs, s, k) <==> !Overlaps(s, s + k - 1, rs[0]) && Free(rs[1..], s, k)
  {
    assert rs[0] in rs;
    assert forall p :: p in rs[1..] ==> p in rs;
    if !Overlaps(s, s + k - 1, rs[0]) && Free(rs[1..], s, k) {
      forall p | p in rs
        ensures !Overlaps(s, s + k - 1, p)
      {
        var j :| 0 <= j < |rs| && rs[j] == p;
        if j > 0 {
          assert p == rs[1..][j - 1] && p in rs[1..];
        }
      }
    }
  }

  /**
   * The gap loop reaches `k` exactly when the running best already does, or
   * some run of `k` free relays starts at or after `cur` and fits the board.
   */
  lemma {:induction false} GapScanFindsFreeRun(rs: seq<Placement>, cur: int, best: int, totalRelays: int, k: int)
    requires ScanReady(rs, cur, totalRelays) && k >= 1
    ensures GapScan(rs, cur, best, totalRelays) >= k <==>
      (best >= k || exists s :: cur <= s && s + k - 1 <= totalRelays && Free(rs, s, k))
  {
    if |rs| == 0 {
      if best < k && GapScan(rs, cur, best, totalRelays) >= k {
        assert Free(rs, cur, k);
      }
    } else {
      var r := rs[0];
      var gap := r.startRelay - cur;
      var best' := if gap > best then gap else best;
      TailReady(rs, cur, totalRelays);
      GapScanFindsFreeRun(rs[1..], End(r) + 1, best', totalRelays, k);
      if best < k && GapScan(rs, cur, best, totalRelays) >= k {
        if gap >= k {
          GapBeforeFirstIsFree(rs, cur, totalRelays, k);
          assert r in rs;
        } else {
          var s :| End(r) + 1 <= s && s + k - 1 <= totalRelays && Free(rs[1..], s, k);
          FreeSplits(rs, s, k);
        }
      }
      if best < k && GapScan(rs, cur, best, totalRelays) < k {
        forall s | cur <= s && s + k - 1 <= totalRelays
          ensures !Free(rs, s, k)
        {
          FreeSplits(rs, s, k);
        }
      }
    }
  }

  /**
   * With a truthy `requiredRelays`, `hasSpaceFor` on a consistent board
   * reaches `k` exactly when some run of `k` free relays exists, which is
   * exactly when `findAvailableSlots` offers a start for `k` relays: it is the
   * longest free run, counting the space before the first and after the last
   * equipment.
   */
  lemma {:induction false} LargestGapIsLongestFreeRun(b: SlotBoard, k: int)
    requires Placed(b) && k >= 1
    ensures GapScan(SortByStart(b.placements), 1, 0, b.totalRelays) >= k <==> FindAvailableSlots(Some(b), k) != []
  {
    var sorted := SortByStart(b.placements);
    SortByStartSorts(b.placements);
    assert forall p :: p in sorted <==> p in b.placements by {
      forall p
        ensures p in sorted <==> p in b.placements
      {
        assert p in sorted <==> p in multiset(sorted);
        assert p in b.placements <==> p in multiset(b.placements);
      }
    }
    if |sorted| > 0 {
      assert sorted[0] in sorted;
    }
    assert ScanReady(sorted, 1, b.totalRelays);
    GapScanFindsFreeRun(sorted, 1, 0, b.totalRelays, k);
    var slots := FindAvailableSlots(Some(b), k);
    if slots != [] {
      var s := slots[0];
      assert Fits(b.totalRelays, s, k) && Free(b.placements, s, k);
      assert Free(sorted, s, k);
    }
    if GapScan(sorted, 1, 0, b.totalRelays) >= k {
      var s :| 1 <= s && s + k - 1 <= b.totalRelays && Free(sorted, s, k);
      assert Free(b.placements, s, k);
      assert s in slots;
    }
  }

  lemma LargestGapForAll(b: SlotBoard)
    requires Placed(b)
    ensures forall k :: k >= 1 ==>
      (GapScan(SortByStart(b.placements), 1, 0, b.totalRelays) >= k <==> FindAvailableSlots(Some(b), k) != [])
  {
    forall k | k >= 1
      ensures GapScan(SortByStart(b.placements), 1, 0, b.totalRelays) >= k <==> FindAvailableSlots(Some(b), k) != []
    {
      LargestGapIsLongestFreeRun(b, k);
    }
  }

  datatype BoardSpace = BoardSpace(availableRelays: int, hasSpaceFor: int)

  /**
   * The numbers `getBoardsForEquipment` attaches to a board: relays not used
   * by any equipment, and, when `requiredRelays` is truthy, the longest run of
   * free relays (otherwise the same count of unused relays).
   */
  function BoardSpaceOf(b: SlotBoard, requiredRelays: Option<int>): (r: BoardSpace)
    ensures r.availableRelays == b.totalRelays - UsedRelays(b.placements)
    ensures !Given(requiredRelays) ==> r.hasSpaceFor == r.availableRelays
    ensures Given(requiredRelays) && Placed(b) ==> forall k :: k >= 1 ==>
      (r.hasSpaceFor >= k <==> FindAvailableSlots(Some(b), k) != [])
  {
    var available := b.totalRelays - UsedRelays(b.placements);
    if Given(requiredRelays) then
      (if Placed(b) then LargestGapForAll(b); BoardSpace(available, GapScan(SortByStart(b.placements), 1, 0, b.totalRelays))
       else BoardSpace(available, GapScan(SortByStart(b.placements), 1, 0, b.totalRelays)))
    else BoardSpace(available, available)
  }

  /** `getBoardsForEquipment`: admins only; one entry per board, in the order given. */
  function GetBoardsForEquipment(session: Session, boards: seq<SlotBoard>, requiredRelays: Option<int>): (r: Result<seq<BoardSpace>, EquipmentError>)
    ensures !IsAdmin(session) <==> r == Err(NotAuthorized)
    ensures r.Ok? ==> |r.value| == |boards|
    ensures r.Ok? ==> forall i :: 0 <= i < |boards| ==>
      r.value[i].availableRelays == boards[i].totalRelays - UsedRelays(boards[i].placements)
    ensures r.Ok? && Given(requiredRelays) ==> forall i, k :: 0 <= i < |boards| && Placed(boards[i]) && k >= 1 ==>
      (r.value[i].hasSpaceFor >= k <==> FindAvailableSlots(Some(boards[i]), k) != [])
  {
    if !IsAdmin(session) then Err(NotAuthorized)
    else Ok(seq(|boards|, i requires 0 <= i < |boards| => BoardSpaceOf(boards[i], requiredRelays)))
  }

  // ---------------------------------------------------------------------------
  // Visibility by role

  /** Admins see everything; others see equipment with no roles or sharing one of their roles. */
  predicate CanSee(user: User, roles: set<string>) {
    user.isAdmin || roles == {} || exists role :: role in roles && role in user.roleIds
  }

  /** `getEquipment`: unauthenticated callers get an error, hidden equipment reads as null. */
  function GetEquipment(session: Session, equipment: Option<Equipment>): (r: Result<Option<Equipment>, EquipmentError>)
    ensures session.None? ==> r == Err(NotAuthorized)
    ensures session.Some? ==> r.Ok?
    ensures r.Ok? ==> r.value.None? || r.value == equipment
    ensures session.Some? && equipment.Some? ==> (r.value == equipment <==> CanSee(session.value, equipment.value.roles))
  {
    if session.None? then Err(NotAuthorized)
    else if equipment.Some? && !CanSee(session.value, equipment.value.roles) then Ok(None)
    else Ok(equipment)
  }

  function Visible(user: User, all: seq<Equipment>): (r: seq<Equipment>)
    ensures forall e :: e in r <==> e in all && CanSee(user, e.roles)
  {
    if |all| == 0 then []
    else
      assert all == [all[0]] + all[1..];
      (if CanSee(user, all[0].roles) then [all[0]] else []) + Visible(user, all[1..])
  }

  /** `getEquipments`: the same role filter, applied by the database query. */
  function GetEquipments(session: Session, all: seq<Equipment>): (r: Result<seq<Equipment>, EquipmentError>)
    ensures session.None? ==> r == Err(NotAuthorized)
    ensures r.Ok? ==> forall e :: e in r.value ==> e in all
    ensures session.Some? ==> r.Ok? && forall e :: e in r.value <==> e in all && CanSee(session.value, e.roles)
    ensures session.Some? && session.value.isAdmin ==> r == Ok(all)
  {
    if session.None? then Err(NotAuthorized)
    else if session.value.isAdmin then Ok(all)
    else Ok(Visible(session.value, all))
  }

  /** The list and the detail read agree on which equipment a user may see. */
  lemma ListAgreesWithDetail(session: Session, all: seq<Equipment>, e: Equipment)
    requires session.Some? && e in all
    ensures e in GetEquipments(session, all).value <==> GetEquipment(session, Some(e)) == Ok(Some(e))
  {
  }
}

=== FILE: events_route.dfy ===
/**
 * The server-sent-events route (`GET` in `api/relay/events/route.ts`): one
 * stream per browser tab. Its `start` sends a snapshot of every board's relay
 * state and of the active locks, then subscribes to the change bus and starts
 * a heartbeat; `cancel` undoes the subscriptions. The two database queries are
 * the points where `start` waits, so their results, the client's `cancel`,
 * bus deliveries and heartbeat ticks are the events of this model.
 */
module EventsRoute {
  import opened Wrappers
  import opened Session
  import opened RelayEvents

  /** Where `start` is: waiting for a query, run to its end, or returned early. */
  datatype Phase = AwaitingBoards | AwaitingLocks | Started | Returned

  /** What goes into an SSE frame. */
  datatype Payload =
    | RelayPayload(boardId: string, state: string)
    | LockPayload(equipmentId: string, info: LockInfo)

  datatype Chunk = Data(payload: Payload) | Heartbeat

  /**
   * One stream: `isClosed` as the closure variable, whether each bus
   * subscription and the heartbeat interval exist, what has been enqueued, and
   * the listener identifiers the stream's two callbacks have on the bus.
   */
  datatype Stream = Stream(
    phase: Phase,
    isClosed: bool,
    relaySub: bool,
    lockSub: bool,
    heartbeat: bool,
    out: seq<Chunk>,
    relayListener: ListenerId,
    lockListener: ListenerId)

  datatype BoardRow = BoardRow(id: string, relayState: string)

  datatype LockRow = LockRow(id: string, lockedById: Option<string>, lockedBy: Option<UserInfo>, lockExpiresAt: Option<int>)

  /** The HTTP status of an unauthenticated request. */
  const Unauthorized := 401

  /** `GET`: no session gets 401 and no stream; otherwise a stream waiting for the boards query. */
  function Get(session: Session, relayListener: ListenerId, lockListener: ListenerId): (r: Result<Stream, int>)
    ensures session.None? <==> r == Err(Unauthorized)
    ensures r.Ok? ==>
      && r.value.phase == AwaitingBoards && r.value.out == []
      && !r.value.isClosed && !r.value.relaySub && !r.value.lockSub && !r.value.heartbeat
  {
    if session.None? then Err(Unauthorized)
    else Ok(Stream(AwaitingBoards, false, false, false, false, [], relayListener, lockListener))
  }

  function BoardFrames(boards: seq<BoardRow>): (r: seq<Chunk>)
    ensures |r| == |boards|
    ensures forall i :: 0 <= i < |r| ==> r[i] == Data(RelayPayload(boards[i].id, boards[i].relayState))
  {
    if |boards| == 0 then [] else [Data(RelayPayload(boards[0].id, boards[0].relayState))] + BoardFrames(boards[1..])
  }

  /** A lock the snapshot reports: held and expiring strictly after `now`. */
  predicate ActiveRow(row: LockRow, now: int) {
    row.lockedById.Some? && row.lockExpiresAt.Some? && row.lockExpiresAt.value > now
  }

  function LockPayloadOf(row: LockRow): Payload {
    LockPayload(row.id, LockInfo(row.lockedById, row.lockedBy, row.lockExpiresAt))
  }

  /** The query's `lockedById: { not: null }` filter. */
  function HeldRows(rows: seq<LockRow>): (r: seq<LockRow>)
    ensures forall row :: row in r <==> row in rows && row.lockedById.Some?
  {
    if |rows| == 0 then []
    else (if rows[0].lockedById.Some? then [rows[0]] else []) + HeldRows(rows[1..])
  }

  /** The lock snapshot: one frame per active lock, and no other. */
  function LockFrames(rows: seq<LockRow>, now: int): (r: seq<Chunk>)
    ensures forall c :: c in r ==> exists row :: row in rows && ActiveRow(row, now) && c == Data(LockPayloadOf(row))
    ensures forall row :: row in rows && ActiveRow(row, now) ==> Data(LockPayloadOf(row)) in r
  {
    if |rows| == 0 then []
    else
      var rest := LockFrames(rows[1..], now);
      assert forall row :: row in rows[1..] ==> row in rows;
      assert forall row :: row in rows ==> row == rows[0] || row in rows[1..];
      if ActiveRow(rows[0], now) then [Data(LockPayloadOf(rows[0]))] + rest else rest
  }

  /**
   * The boards query returns (`None` when it throws, which is logged and
   * skipped): without a cancel, one relay frame per board with its persisted
   * state; after a cancel, a non-empty list makes `start` return, while an
   * empty one lets it go on.
   */
  function BoardsArrived(st: Stream, boards: Option<seq<BoardRow>>): (r: Stream)
    requires st.phase == AwaitingBoards
    ensures r.relaySub == st.relaySub && r.lockSub == st.lockSub && r.isClosed == st.isClosed
    ensures r.phase == Returned <==> st.isClosed && boards.Some? && |boards.value| > 0
    ensures r.phase != Returned ==> r.phase == AwaitingLocks
    ensures !st.isClosed && boards.Some? ==> r.out == st.out + BoardFrames(boards.value)
    ensures st.isClosed || boards.None? ==> r.out == st.out
  {
    match boards
    case None => st.(phase := AwaitingLocks)
    case Some(bs) =>
      if |bs| > 0 && st.isClosed then st.(phase := Returned)
      else st.(phase := AwaitingLocks, out := st.out + BoardFrames(bs))
  }

  /**
   * The locks query returns: the active locks go out as in the boards step;
   * then both bus subscriptions and the heartbeat are set up. As written the
   * subscriptions are created whenever `start` gets this far, also after a
   * cancel; `guarded` adds the missing check of `isClosed` before subscribing.
   */
  function LocksArrivedWith(st: Stream, bus: Bus, rows: Option<seq<LockRow>>, now: int, guarded: bool): (r: (Stream, Bus))
    requires st.phase == AwaitingLocks
  {
    var held := if rows.Some? then HeldRows(rows.value) else [];
    if rows.Some? && |held| > 0 && st.isClosed then (st.(phase := Returned), bus)
    else
      var st1 := st.(out := if st.isClosed then st.out else st.out + LockFrames(held, now));
      if guarded && st.isClosed then (st1.(phase := Returned), bus)
      else
        (st1.(phase := Started, relaySub := true, lockSub := true, heartbeat := true),
         SubscribeLock(SubscribeRelay(bus, st.relayListener), st.lockListener))
  }

  /** The locks query as the route handles it. */
  function LocksArrived(st: Stream, bus: Bus, rows: Option<seq<LockRow>>, now: int): (r: (Stream, Bus))
    requires st.phase == AwaitingLocks
    ensures !st.isClosed && rows.Some? ==> r.0.out == st.out + LockFrames(HeldRows(rows.value), now)
    ensures !st.isClosed ==>
      && r.0.phase == Started && r.0.relaySub && r.0.lockSub && r.0.heartbeat
      && r.1 == SubscribeLock(SubscribeRelay(bus, st.relayListener), st.lockListener)
    ensures r.0.out == st.out || !st.isClosed
    ensures rows.None? ==> r.0.out == st.out
    ensures r.0.phase == Returned ==> r.1 == bus && r.0.isClosed
    ensures st.isClosed && (rows.None? || HeldRows(rows.value) == []) ==>
      r.1 == SubscribeLock(SubscribeRelay(bus, st.relayListener), st.lockListener)
    ensures st.isClosed && rows.Some? && HeldRows(rows.value) != [] ==> r.0.phase == Returned && r.1 == bus
  {
    LocksArrivedWith(st, bus, rows, now, false)
  }

  /** The locks step with the closed check before subscribing: a cancelled stream never subscribes. */
  function LocksArrivedCorrected(st: Stream, bus: Bus, rows: Option<seq<LockRow>>, now: int): (r: (Stream, Bus))
    requires st.phase == AwaitingLocks
    ensures st.isClosed ==> r == (st.(phase := Returned), bus)
    ensures !st.isClosed ==> r == LocksArrived(st, bus, rows, now)
  {
    LocksArrivedWith(st, bus, rows, now, true)
  }

  /** `cancel`: mark closed, clear the heartbeat, call whichever unsubscribe functions exist. */
  function Cancel(st: Stream, bus: Bus): (r: (Stream, Bus))
    ensures r.0.isClosed && !r.0.heartbeat && !r.0.relaySub && !r.0.lockSub
    ensures r.0.out == st.out && r.0.phase == st.phase
    ensures r.1.relayListeners == (if st.relaySub then bus.relayListeners - {st.relayListener} else bus.relayListeners)
    ensures r.1.lockListeners == (if st.lockSub then bus.lockListeners - {st.lockListener} else bus.lockListeners)
  {
    var b1 := if st.relaySub then UnsubscribeRelay(bus, st.relayListener) else bus;
    var b2 := if st.lockSub then UnsubscribeLock(b1, st.lockListener) else b1;
    (st.(isClosed := true, heartbeat := false, relaySub := false, lockSub := false), b2)
  }

  /** The relay listener is called by the bus: a frame, unless the stream is closed. */
  function RelayDelivered(st: Stream, e: RelayEvent): (r: Stream)
    ensures st.isClosed ==> r == st
    ensures !st.isClosed ==> r == st.(out := st.out + [Data(RelayPayload(e.boardId, e.state))])
  {
    if st.isClosed then st else st.(out := st.out + [Data(RelayPayload(e.boardId, e.state))])
  }

  /** The lock listener is called by the bus: a frame, unless the stream is closed. */
  function LockDelivered(st: Stream, e: LockEvent): (r: Stream)
    ensures st.isClosed ==> r == st
    ensures !st.isClosed ==> r == st.(out := st.out + [Data(LockPayload(e.equipmentId, e.info))])
  {
    if st.isClosed then st else st.(out := st.out + [Data(LockPayload(e.equipmentId, e.info))])
  }

  /** The 30-second interval fires: a heartbeat, or, once closed, the interval clears itself. */
  function HeartbeatTick(st: Stream): (r: Stream)
    ensures st.isClosed ==> r == st.(heartbeat := false)
    ensures !st.isClosed ==> r == st.(out := st.out + [Heartbeat])
  {
    if st.isClosed then st.(heartbeat := false) else st.(out := st.out + [Heartbeat])
  }

  /**
   * The bytes of a chunk. JSON encoding is left to `stringify`; a payload
   * frame is `data: <json>` and a blank line, the heartbeat a comment line.
   */
  function FrameText(c: Chunk, stringify: Payload -> string): (t: string)
    ensures c.Heartbeat? ==> t == ": heartbeat\n\n"
    ensures c.Data? ==> |t| == 8 + |stringify(c.payload)| && t[..6] == "data: " && t[|t| - 2..] == "\n\n"
    ensures c.Data? ==> t[6..|t| - 2] == stringify(c.payload)
  {
    match c
    case Heartbeat => ": heartbeat\n\n"
    case Data(p) => "data: " + stringify(p) + "\n\n"
  }

  // ---------------------------------------------------------------------------
  // Runs

  datatype Event =
    | BoardsArrive(boards: Option<seq<BoardRow>>)
    | LocksArrive(rows: Option<seq<LockRow>>, now: int)
    | ClientCancels
    | BusRelay(relay: RelayEvent)
    | BusLock(lock: LockEvent)
    | Tick

  /**
   * One event. Query results only count in the phase that waits for them;
   * the bus calls a listener only while it is subscribed; the interval ticks
   * only while it exists; `cancel` comes at most once, which `isClosed` records.
   */
  function Step(st: Stream, bus: Bus, ev: Event, guarded: bool): (r: (Stream, Bus)) {
    match ev
    case BoardsArrive(boards) =>
      if st.phase == AwaitingBoards then (BoardsArrived(st, boards), bus) else (st, bus)
    case LocksArrive(rows, now) =>
      if st.phase == AwaitingLocks then LocksArrivedWith(st, bus, rows, now, guarded) else (st, bus)
    case ClientCancels => if st.isClosed then (st, bus) else Cancel(st, bus)
    case BusRelay(e) => if st.relaySub then (RelayDelivered(st, e), bus) else (st, bus)
    case BusLock(e) => if st.lockSub then (LockDelivered(st, e), bus) else (st, bus)
    case Tick => if st.heartbeat then (HeartbeatTick(st), bus) else (st, bus)
  }

  function Run(st: Stream, bus: Bus, evs: seq<Event>, guarded: bool): (Stream, Bus)
    decreases |evs|
  {
    if |evs| == 0 then (st, bus)
    else
      var (st1, bus1) := Step(st, bus, evs[0], guarded);
      Run(st1, bus1, evs[1..], guarded)
  }

  /**
   * The bus is what it was before the stream connected, plus exactly the
   * stream's own live subscriptions; its listener identifiers are fresh.
   */
  predicate Tracked(st: Stream, bus: Bus, base: Bus) {
    && st.relayListener !in base.relayListeners
    && st.lockListener !in base.lockListeners
    && bus.relayListeners == base.relayListeners + (if st.relaySub then {st.relayListener} else {})
    && bus.lockListeners == base.lockListeners + (if st.lockSub then {st.lockListener} else {})
  }

  /** A closed stream holds no subscription and no interval. */
  predicate Clean(st: Stream) {
    st.isClosed ==> !st.relaySub && !st.lockSub && !st.heartbeat
  }

  lemma TrackedCount(st: Stream, bus: Bus, base: Bus)
    requires Tracked(st, bus, base)
    ensures ListenerCount(bus) == ListenerCount(base) + (if st.relaySub then 1 else 0) + (if st.lockSub then 1 else 0)
  {
  }

  /** A fresh stream leaves the bus as it was and is clean. */
  lemma GetStartsClean(session: Session, bus: Bus, relayListener: ListenerId, lockListener: ListenerId)
    requires session.Some? && relayListener !in bus.relayListeners && lockListener !in bus.lockListeners
    ensures Get(session, relayListener, lockListener).Ok?
    ensures Tracked(Get(session, relayListener, lockListener).value, bus, bus)
    ensures Clean(Get(session, relayListener, lockListener).value)
  {
  }

  lemma GuardedStepKeepsClean(st: Stream, bus: Bus, base: Bus, ev: Event)
    requires Tracked(st, bus, base) && Clean(st)
    ensures Tracked(Step(st, bus, ev, true).0, Step(st, bus, ev, true).1, base)
    ensures Clean(Step(st, bus, ev, true).0)
    ensures Step(st, bus, ev, true).0.isClosed == (st.isClosed || ev.ClientCancels?)
  {
  }

  /**
   * With the closed check before subscribing, whatever order the queries,
   * bus events, ticks and the cancel come in, once the client has cancelled
   * the bus is back to what it was before the stream connected.
   */
  lemma {:induction false} GuardedRunNeverLeaks(st: Stream, bus: Bus, base: Bus, evs: seq<Event>)
    requires Tracked(st, bus, base) && Clean(st)
    ensures Tracked(Run(st, bus, evs, true).0, Run(st, bus, evs, true).1, base)
    ensures Clean(Run(st, bus, evs, true).0)
    ensures Run(st, bus, evs, true).0.isClosed <==> st.isClosed || ClientCancels in evs
    ensures Run(st, bus, evs, true).0.isClosed ==> Run(st, bus, evs, true).1 == base
    decreases |evs|
  {
    if |evs| > 0 {
      assert ClientCancels in evs <==> evs[0] == ClientCancels || ClientCancels in evs[1..] by {
        assert evs == [evs[0]] + evs[1..];
      }
      GuardedStepKeepsClean(st, bus, base, evs[0]);
      var (st1, bus1) := Step(st, bus, evs[0], true);
      GuardedRunNeverLeaks(st1, bus1, base, evs[1..]);
    }
  }

  /**
   * As written, a cancel that arrives while both queries are pending, with an
   * empty board list and no held lock, leaves a closed stream holding both bus
   * subscriptions: two listeners that nothing will ever remove.
   */
  lemma CancelDuringEmptySnapshotLeaks(session: Session, bus: Bus, relayListener: ListenerId, lockListener: ListenerId, now: int)
    requires session.Some? && relayListener !in bus.relayListeners && lockListener !in bus.lockListeners
    ensures var st := Get(session, relayListener, lockListener).value;
      var (st', bus') := Run(st, bus, [ClientCancels, BoardsArrive(Some([])), LocksArrive(Some([]), now)], false);
      && st'.isClosed && st'.relaySub && st'.lockSub
      && ListenerCount(bus') == ListenerCount(bus) + 2
  {
    var evs := [ClientCancels, BoardsArrive(Some([])), LocksArrive(Some([]), now)];
    var st := Get(session, relayListener, lockListener).value;
    var (s1, b1) := Step(st, bus, evs[0], false);
    var (s2, b2) := Step(s1, b1, evs[1], false);
    var (s3, b3) := Step(s2, b2, evs[2], false);
    assert s2.phase == AwaitingLocks && s2.isClosed && b2 == bus;
    assert HeldRows([]) == [];
    assert Run(st, bus, evs, false) == Run(s1, b1, evs[1..], false) == Run(s2, b2, evs[2..], false) == Run(s3, b3, [], false);
    assert Tracked(s3, b3, bus);
    TrackedCount(s3, b3, bus);
  }

  /** The same run with the corrected step ends with the bus as it was. */
  lemma CancelDuringEmptySnapshotGuarded(session: Session, bus: Bus, relayListener: ListenerId, lockListener: ListenerId, now: int)
    requires session.Some? && relayListener !in bus.relayListeners && lockListener !in bus.lockListeners
    ensures var st := Get(session, relayListener, lockListener).value;
      var (st', bus') := Run(st, bus, [ClientCancels, BoardsArrive(Some([])), LocksArrive(Some([]), now)], true);
      st'.isClosed && bus' == bus
  {
    var evs := [ClientCancels, BoardsArrive(Some([])), LocksArrive(Some([]), now)];
    GetStartsClean(session, bus, relayListener, lockListener);
    GuardedRunNeverLeaks(Get(session, relayListener, lockListener).value, bus, bus, evs);
  }

  /** Once `start` has run to its end, `cancel` returns the bus to its pre-connect state, as written. */
  lemma CancelAfterStartRestoresBus(st: Stream, bus: Bus, base: Bus)
    requires Tracked(st, bus, base) && st.phase == Started && !st.isClosed
    ensures Cancel(st, bus).1 == base
    ensures ListenerCount(Cancel(st, bus).1) == ListenerCount(base)
  {
  }

  /** A snapshot with boards, taken without a cancel, starts with one relay frame per board, in order. */
  lemma SnapshotComesFirst(session: Session, bus: Bus, relayListener: ListenerId, lockListener: ListenerId, boards: seq<BoardRow>)
    requires session.Some?
    ensures var st := Get(session, relayListener, lockListener).value;
      var (st', _) := Run(st, bus, [BoardsArrive(Some(boards))], false);
      st'.out == BoardFrames(boards) && st'.phase == AwaitingLocks
  {
  }
}

=== FILE: proxy.dfy ===
/**
 * The route guard (`proxy.ts`): for every request path the matcher lets
 * through, decide from the path and whether a session exists whether the
 * request proceeds or is redirected.
 */
module Proxy {
  import opened Text

  const LoginPath := "/login"
  const HomePath := "/"
  const AuthApiPrefix := "/api/auth"

  datatype Decision = Next | Redirect(target: string)

  /**
   * Authentication endpoints always proceed; a signed-in user on the login
   * page goes home; an anonymous user anywhere but the login page goes to it.
   */
  function AuthDecision(path: string, loggedIn: bool): (d: Decision)
    ensures StartsWith(path, AuthApiPrefix) ==> d == Next
    ensures !StartsWith(path, AuthApiPrefix) && loggedIn && path == LoginPath ==> d == Redirect(HomePath)
    ensures !StartsWith(path, AuthApiPrefix) && !loggedIn && path != LoginPath ==> d == Redirect(LoginPath)
    ensures d == Next <==> StartsWith(path, AuthApiPrefix) || (loggedIn != (path == LoginPath))
  {
    var isOnLogin := path == LoginPath;
    if StartsWith(path, AuthApiPrefix) then Next
    else if loggedIn && isOnLogin then Redirect(HomePath)
    else if !loggedIn && !isOnLogin then Redirect(LoginPath)
    else Next
  }

  /** No path is redirected to itself. */
  lemma NeverRedirectsToItself(path: string, loggedIn: bool)
    ensures AuthDecision(path, loggedIn).Redirect? ==> AuthDecision(path, loggedIn).target != path
  {
  }

  /** One redirect suffices: the page redirected to lets the same user through. */
  lemma RedirectSettlesInOneHop(path: string, loggedIn: bool)
    ensures AuthDecision(path, loggedIn).Redirect? ==> AuthDecision(AuthDecision(path, loggedIn).target, loggedIn) == Next
  {
  }
}

=== FILE: relay_bits.dfy ===
/**
 * The relay-state string of a board: one character per relay, index 0 is
 * physical relay 1, `'1'` meaning energised. Both the server's optimistic
 * toggle and the browser's optimistic toggle flip one character of it the
 * way JavaScript does when it splits the string into an array, assigns one
 * element and joins the array again.
 */
module RelayBits {

  /** The state a browser assumes for a board it has heard nothing about. */
  const DefaultBoardState: string := "00000000"

  /** `c === "1" ? "0" : "1"`: anything that is not `'1'` becomes `'1'`. */
  function FlipChar(c: char): (r: char)
    ensures r == '0' <==> c == '1'
    ensures r == '0' || r == '1'
  {
    if c == '1' then '0' else '1'
  }

  /** True iff `c` is one of the two characters a relay can report. */
  predicate IsBit(c: char) {
    c == '0' || c == '1'
  }

  /**
   * `a = s.split(""); a[i] = a[i] === "1" ? "0" : "1"; a.join("")`.
   * A negative index becomes an ordinary property of the array and is
   * ignored by `join`; an index at or past the end grows the array, the
   * holes join as empty strings, and `undefined !== "1"` appends a `'1'`.
   */
  function FlipAt(s: string, i: int): (r: string)
    ensures 0 <= i < |s| ==> |r| == |s| && r[i] == FlipChar(s[i])
    ensures 0 <= i < |s| ==> forall j :: 0 <= j < |s| && j != i ==> r[j] == s[j]
    ensures i >= |s| ==> r == s + "1"
    ensures i < 0 ==> r == s
  {
    if i < 0 then s
    else if i < |s| then s[i := FlipChar(s[i])]
    else s + "1"
  }

  /** `state[i] === "1"`: an index outside the string reads `undefined`. */
  function RelayOn(state: string, i: int): (on: bool)
    ensures on <==> 0 <= i < |state| && state[i] == '1'
  {
    0 <= i < |state| && state[i] == '1'
  }

  /** Flipping a relay changes what `RelayOn` reports for it and for no other relay. */
  lemma FlipTogglesOnlyThatRelay(s: string, i: int, j: int)
    requires 0 <= i < |s| && IsBit(s[i])
    ensures RelayOn(FlipAt(s, i), j) == (if j == i then !RelayOn(s, i) else RelayOn(s, j))
  {
  }

  /**
   * Flipping the same in-range `'0'`/`'1'` position twice restores the string:
   * the rollback a browser performs when the server rejects a toggle.
   */
  lemma FlipTwiceRestores(s: string, i: int)
    requires 0 <= i < |s| && IsBit(s[i])
    ensures FlipAt(FlipAt(s, i), i) == s
  {
  }

  /**
   * The rollback is exact only for `'0'`/`'1'` characters inside the string:
   * past the end the first flip appends `'1'` and the second turns it into
   * `'0'`, leaving a string one character longer.
   */
  lemma FlipTwicePastEndGrows(s: string)
    ensures FlipAt(FlipAt(s, |s|), |s|) == s + "0"
  {
  }
}

=== FILE: relay_events.dfy ===
/**
 * The in-process change bus (`RelayEventEmitter`): two independent sets of
 * listeners, one for relay-state changes and one for lock changes. A listener
 * is a function value in the source; here it is an opaque identifier, and
 * calling it is recorded as a `Call`.
 */
module RelayEvents {
  import opened Wrappers

  type ListenerId = nat

  datatype UserInfo = UserInfo(id: string, email: string, name: string)

  /** The lock fields published with every lock change. */
  datatype LockInfo = LockInfo(lockedById: Option<string>, lockedBy: Option<UserInfo>, lockExpiresAt: Option<int>)

  /** The lock information of a cleared lock: all three fields null. */
  const Cleared: LockInfo := LockInfo(None, None, None)

  datatype RelayEvent = RelayEvent(boardId: string, state: string)

  datatype LockEvent = LockEvent(equipmentId: string, info: LockInfo)

  datatype Bus = Bus(relayListeners: set<ListenerId>, lockListeners: set<ListenerId>)

  const EmptyBus: Bus := Bus({}, {})

  /** One invocation of a listener by `emitRelay` or `emitLock`. */
  datatype Call =
    | RelayCall(listener: ListenerId, relay: RelayEvent)
    | LockCall(listener: ListenerId, lock: LockEvent)

  /** `subscribeRelay`: the listener joins a set, so subscribing twice registers it once. */
  function SubscribeRelay(bus: Bus, l: ListenerId): (b: Bus)
    ensures b.relayListeners == bus.relayListeners + {l}
    ensures b.lockListeners == bus.lockListeners
  {
    bus.(relayListeners := bus.relayListeners + {l})
  }

  /** The function `subscribeRelay` returns: deletes exactly that listener. */
  function UnsubscribeRelay(bus: Bus, l: ListenerId): (b: Bus)
    ensures b.relayListeners == bus.relayListeners - {l}
    ensures b.lockListeners == bus.lockListeners
  {
    bus.(relayListeners := bus.relayListeners - {l})
  }

  /** `subscribeLock`. */
  function SubscribeLock(bus: Bus, l: ListenerId): (b: Bus)
    ensures b.lockListeners == bus.lockListeners + {l}
    ensures b.relayListeners == bus.relayListeners
  {
    bus.(lockListeners := bus.lockListeners + {l})
  }

  /** The function `subscribeLock` returns. */
  function UnsubscribeLock(bus: Bus, l: ListenerId): (b: Bus)
    ensures b.lockListeners == bus.lockListeners - {l}
    ensures b.relayListeners == bus.relayListeners
  {
    bus.(lockListeners := bus.lockListeners - {l})
  }

  /**
   * `emitRelay(boardId, state)`: every relay listener is called once with the
   * event. Each call sits in its own `try`/`catch`, so the listeners in
   * `throwing` fail without stopping the others; they are reported in `failed`.
   */
  function EmitRelay(bus: Bus, e: RelayEvent, throwing: set<ListenerId>): (r: (set<Call>, set<ListenerId>))
    ensures forall c :: c in r.0 ==> c.RelayCall? && c.relay == e && c.listener in bus.relayListeners
    ensures forall l :: l in bus.relayListeners ==> RelayCall(l, e) in r.0
    ensures r.1 == bus.relayListeners * throwing
  {
    (set l | l in bus.relayListeners :: RelayCall(l, e), bus.relayListeners * throwing)
  }

  /** `emitLock(equipmentId, lockInfo)`: the same for lock listeners. */
  function EmitLock(bus: Bus, e: LockEvent, throwing: set<ListenerId>): (r: (set<Call>, set<ListenerId>))
    ensures forall c :: c in r.0 ==> c.LockCall? && c.lock == e && c.listener in bus.lockListeners
    ensures forall l :: l in bus.lockListeners ==> LockCall(l, e) in r.0
    ensures r.1 == bus.lockListeners * throwing
  {
    (set l | l in bus.lockListeners :: LockCall(l, e), bus.lockListeners * throwing)
  }

  /** `getListenerCount`. */
  function ListenerCount(bus: Bus): (n: nat)
    ensures n == 0 <==> bus == EmptyBus
  {
    |bus.relayListeners| + |bus.lockListeners|
  }

  /**
   * A listener that throws does not change who else is called. The model
   * makes this structural: the set of calls `EmitRelay` makes never reads
   * `throwing`, which is why the lemma needs no proof steps.
   */
  lemma ThrowingListenersDoNotStopDelivery(bus: Bus, e: RelayEvent, t1: set<ListenerId>, t2: set<ListenerId>)
    ensures EmitRelay(bus, e, t1).0 == EmitRelay(bus, e, t2).0
  {
  }

  /** Subscribing a fresh listener and then calling its unsubscribe restores the bus. */
  lemma SubscribeThenUnsubscribeRestores(bus: Bus, l: ListenerId)
    requires l !in bus.relayListeners && l !in bus.lockListeners
    ensures UnsubscribeRelay(SubscribeRelay(bus, l), l) == bus
    ensures UnsubscribeLock(SubscribeLock(bus, l), l) == bus
  {
  }

  /** Calling an unsubscribe function a second time changes nothing. */
  lemma UnsubscribeIdempotent(bus: Bus, l: ListenerId)
    ensures UnsubscribeRelay(UnsubscribeRelay(bus, l), l) == UnsubscribeRelay(bus, l)
    ensures UnsubscribeLock(UnsubscribeLock(bus, l), l) == UnsubscribeLock(bus, l)
  {
  }

  /** Subscribing the same listener twice registers it once. */
  lemma SubscribeIdempotent(bus: Bus, l: ListenerId)
    ensures SubscribeRelay(SubscribeRelay(bus, l), l) == SubscribeRelay(bus, l)
    ensures ListenerCount(SubscribeRelay(SubscribeRelay(bus, l), l)) == ListenerCount(bus) + (if l in bus.relayListeners then 0 else 1)
  {
    if l in bus.relayListeners {
      assert bus.relayListeners + {l} == bus.relayListeners;
    } else {
      assert |bus.relayListeners + {l}| == |bus.relayListeners| + 1;
    }
  }
}

=== FILE: relay_service.dfy ===
/**
 * The relay board coordinator (`relay-service.ts`): a per-board cache of the
 * last state read from the hardware, the database copy of that state, and
 * the events published on the change bus. Hardware requests are not made by
 * the model: each operation receives the reply the board gave (`HwReply`)
 * and the current time in milliseconds, and reports the command it issued.
 * The per-board mutex `withLock` is not modelled: each operation is one
 * atomic step, and `toggleRelay` and the sweep never take the mutex anyway.
 */
module RelayService {
  import opened Wrappers
  import opened Text
  import RelayBits
  import Devantech
  import opened RelayEvents

  /** How long a cache entry short-circuits a hardware read. */
  const CacheTtl: int := 2000

  datatype Board = Board(ipAddress: string, totalRelays: int, relayState: string)

  datatype CacheEntry = CacheEntry(state: string, timestamp: nat)

  /** The database's boards and the in-memory cache, both keyed by board id. */
  datatype Service = Service(boards: map<string, Board>, cache: map<string, CacheEntry>)

  /** What `fetch` produced: a network failure or timeout, or an HTTP response. */
  datatype HwReply = NetworkError | HttpReply(status: int, body: string)

  datatype ServiceError = BoardNotFound | InvalidRelayIndex | HttpStatus(status: int) | Unreachable

  /** The two requests the service sends to a board. */
  datatype Command = FetchStatus(ipAddress: string) | Pulse(ipAddress: string, relayNumber: int)

  /** The outcome of an operation: new service state, events published in order, returned value. */
  datatype Step<T> = Step(svc: Service, events: seq<RelayEvent>, value: T)

  /** `response.ok`. */
  predicate ReplyOk(r: HwReply) {
    r.HttpReply? && 200 <= r.status <= 299
  }

  function ReplyError(r: HwReply): (e: ServiceError)
    requires !ReplyOk(r)
    ensures e == Unreachable || e.HttpStatus?
  {
    if r.NetworkError? then Unreachable else HttpStatus(r.status)
  }

  function CacheAt(svc: Service, id: string): Option<CacheEntry> {
    if id in svc.cache then Some(svc.cache[id]) else None
  }

  /** `!cached || cached.state !== state`. */
  predicate Changed(cached: Option<CacheEntry>, state: string) {
    cached.None? || cached.value.state != state
  }

  /** Number of characters a parse of the board's page yields. */
  function Width(totalRelays: int): nat {
    if totalRelays < 0 then 0 else totalRelays
  }

  /**
   * `syncBoardState`: read the board, store the parsed state in the cache with
   * a fresh timestamp and in the database (always), and publish it only if it
   * differs from the cached state or nothing was cached.
   */
  function SyncBoardState(svc: Service, id: string, reply: HwReply, now: nat): (r: Result<Step<string>, ServiceError>)
    ensures id !in svc.boards ==> r == Err(BoardNotFound)
    ensures id in svc.boards && !ReplyOk(reply) ==> r == Err(ReplyError(reply))
    ensures r.Ok? <==> id in svc.boards && ReplyOk(reply)
    ensures r.Ok? ==>
      var b := svc.boards[id];
      var s := r.value.value;
      && s == Devantech.ParseDevantechXml(reply.body, b.totalRelays)
      && |s| == Width(b.totalRelays) && AllDigits(s)
      && r.value.svc.cache == svc.cache[id := CacheEntry(s, now)]
      && r.value.svc.boards == svc.boards[id := b.(relayState := s)]
      && (Changed(CacheAt(svc, id), s) ==> r.value.events == [RelayEvent(id, s)])
      && (!Changed(CacheAt(svc, id), s) ==> r.value.events == [])
  {
    if id !in svc.boards then Err(BoardNotFound)
    else if !ReplyOk(reply) then Err(ReplyError(reply))
    else
      var b := svc.boards[id];
      var s := Devantech.ParseDevantechXml(reply.body, b.totalRelays);
      var events := if Changed(CacheAt(svc, id), s) then [RelayEvent(id, s)] else [];
      Ok(Step(Service(svc.boards[id := b.(relayState := s)], svc.cache[id := CacheEntry(s, now)]), events, s))
  }

  /** The cache entry for `id` is younger than the TTL. */
  predicate Fresh(svc: Service, id: string, now: nat) {
    id in svc.cache && now - svc.cache[id].timestamp < CacheTtl
  }

  /** `getBoardState`: the cached state while it is fresh, otherwise a full sync. */
  function GetBoardState(svc: Service, id: string, reply: HwReply, now: nat): (r: Result<Step<string>, ServiceError>)
    ensures Fresh(svc, id, now) ==> r == Ok(Step(svc, [], svc.cache[id].state))
    ensures !Fresh(svc, id, now) ==> r == SyncBoardState(svc, id, reply, now)
  {
    if Fresh(svc, id, now) then Ok(Step(svc, [], svc.cache[id].state))
    else SyncBoardState(svc, id, reply, now)
  }

  /** The fast path does not consult the hardware: any reply gives the same outcome. */
  lemma FreshReadIgnoresHardware(svc: Service, id: string, r1: HwReply, r2: HwReply, now: nat)
    requires Fresh(svc, id, now)
    ensures GetBoardState(svc, id, r1, now) == GetBoardState(svc, id, r2, now)
  {
  }

  /**
   * Past the TTL (or with nothing cached) the read goes to the hardware: an
   * unreachable board makes it fail, and a good reply refreshes the cache.
   */
  lemma StaleReadConsultsHardware(svc: Service, id: string, reply: HwReply, now: nat)
    requires !Fresh(svc, id, now) && id in svc.boards
    ensures GetBoardState(svc, id, NetworkError, now) == Err(Unreachable)
    ensures ReplyOk(reply) ==>
      && GetBoardState(svc, id, reply, now).Ok?
      && Fresh(GetBoardState(svc, id, reply, now).value.svc, id, now)
  {
  }

  /**
   * Reconciliation publishes at most once per change: a second sync that reads
   * the same page returns the same state and publishes nothing.
   */
  lemma SyncTwicePublishesOnce(svc: Service, id: string, reply: HwReply, now: nat, later: nat)
    requires SyncBoardState(svc, id, reply, now).Ok?
    ensures var first := SyncBoardState(svc, id, reply, now).value;
      var second := SyncBoardState(first.svc, id, reply, later);
      second.Ok? && second.value.value == first.value && second.value.events == []
  {
  }

  /** The request `toggleRelay` sends, or why it rejects the call before sending anything. */
  function ToggleCommand(svc: Service, id: string, relayIndex: int): (r: Result<Command, ServiceError>)
    ensures id !in svc.boards ==> r == Err(BoardNotFound)
    ensures id in svc.boards ==> (r.Ok? <==> 0 <= relayIndex < svc.boards[id].totalRelays)
    ensures r.Err? ==> r.error == BoardNotFound || r.error == InvalidRelayIndex
    ensures r.Ok? ==>
      && r.value.Pulse? && r.value.ipAddress == svc.boards[id].ipAddress
      && 1 <= r.value.relayNumber <= svc.boards[id].totalRelays
      && r.value.relayNumber - 1 == relayIndex
  {
    if id !in svc.boards then Err(BoardNotFound)
    else if relayIndex < 0 || relayIndex >= svc.boards[id].totalRelays then Err(InvalidRelayIndex)
    else Ok(Pulse(svc.boards[id].ipAddress, relayIndex + 1))
  }

  datatype Toggled = Toggled(step: Step<string>, sent: Command)

  /**
   * `toggleRelay`: validate, pulse, then, only if the board has a cache entry,
   * flip that one character optimistically, publish it and store it. Returns
   * the cached state, or the database state when nothing is cached. The
   * resync the source schedules 200 ms later is a separate `SyncBoardState`.
   */
  function ToggleRelay(svc: Service, id: string, relayIndex: int, reply: HwReply, now: nat): (r: Result<Toggled, ServiceError>)
    ensures id !in svc.boards ==> r == Err(BoardNotFound)
    ensures id in svc.boards && !(0 <= relayIndex < svc.boards[id].totalRelays) ==> r == Err(InvalidRelayIndex)
    ensures ToggleCommand(svc, id, relayIndex).Ok? && !ReplyOk(reply) ==> r == Err(ReplyError(reply))
    ensures ToggleCommand(svc, id, relayIndex).Ok? && ReplyOk(reply) ==> r.Ok?
    ensures r.Ok? ==> ReplyOk(reply) && r.value.sent == Pulse(svc.boards[id].ipAddress, relayIndex + 1)
    ensures r.Ok? && id in svc.cache ==>
      var s := RelayBits.FlipAt(svc.cache[id].state, relayIndex);
      && r.value.step.value == s
      && r.value.step.events == [RelayEvent(id, s)]
      && r.value.step.svc.cache == svc.cache[id := CacheEntry(s, now)]
      && r.value.step.svc.boards == svc.boards[id := svc.boards[id].(relayState := s)]
    ensures r.Ok? && id !in svc.cache ==>
      r.value.step == Step(svc, [], svc.boards[id].relayState)
  {
    match ToggleCommand(svc, id, relayIndex)
    case Err(e) => Err(e)
    case Ok(cmd) =>
      if !ReplyOk(reply) then Err(ReplyError(reply))
      else
        var b := svc.boards[id];
        if id in svc.cache then
          var s := RelayBits.FlipAt(svc.cache[id].state, relayIndex);
          var svc' := Service(svc.boards[id := b.(relayState := s)], svc.cache[id := CacheEntry(s, now)]);
          // `stateCache.get(boardId)?.state || board.relayState`: the flipped state is never empty
          Ok(Toggled(Step(svc', [RelayEvent(id, s)], if s != "" then s else b.relayState), cmd))
        else
          Ok(Toggled(Step(svc, [], b.relayState), cmd))
  }

  /**
   * Cache coherence: right after a toggle of a cached `'0'`/`'1'` relay, a read
   * within the TTL reports that relay flipped and every other relay as before,
   * whatever the hardware would say.
   */
  lemma ToggleThenReadSeesFlip(svc: Service, id: string, i: int, reply: HwReply, now: nat, later: nat, any: HwReply, j: int)
    requires ToggleRelay(svc, id, i, reply, now).Ok?
    requires id in svc.cache && i < |svc.cache[id].state| && RelayBits.IsBit(svc.cache[id].state[i])
    requires now <= later < now + CacheTtl
    ensures var t := ToggleRelay(svc, id, i, reply, now).value.step;
      var read := GetBoardState(t.svc, id, any, later);
      && read.Ok? && read.value.events == []
      && RelayBits.RelayOn(read.value.value, j) == (if j == i then !RelayBits.RelayOn(svc.cache[id].state, i) else RelayBits.RelayOn(svc.cache[id].state, j))
  {
    var s := svc.cache[id].state;
    RelayBits.FlipTogglesOnlyThatRelay(s, i, j);
  }

  /** Without a cache entry a toggle still pulses, but publishes and writes nothing. */
  lemma UncachedToggleIsSilent(svc: Service, id: string, i: int, reply: HwReply, now: nat)
    requires id in svc.boards && 0 <= i < svc.boards[id].totalRelays && ReplyOk(reply)
    requires id !in svc.cache
    ensures ToggleRelay(svc, id, i, reply, now) == Ok(Toggled(Step(svc, [], svc.boards[id].relayState), Pulse(svc.boards[id].ipAddress, i + 1)))
  {
  }

  /** The body the background sweep runs for one board, on that board's own entries. */
  function SweepEntry(id: string, b: Board, cached: Option<CacheEntry>, reply: HwReply, now: nat): (r: (Board, Option<CacheEntry>, seq<RelayEvent>))
    ensures !ReplyOk(reply) ==> r == (b, cached, [])
    ensures ReplyOk(reply) ==>
      var s := Devantech.ParseDevantechXml(reply.body, b.totalRelays);
      && r.1 == Some(CacheEntry(s, now))
      && (Changed(cached, s) ==> r.0 == b.(relayState := s) && r.2 == [RelayEvent(id, s)])
      && (!Changed(cached, s) ==> r.0 == b && r.2 == [])
  {
    if !ReplyOk(reply) then (b, cached, [])
    else
      var s := Devantech.ParseDevantechXml(reply.body, b.totalRelays);
      if Changed(cached, s) then (b.(relayState := s), Some(CacheEntry(s, now)), [RelayEvent(id, s)])
      else (b, Some(CacheEntry(s, now)), [])
  }

  /** Apply the sweep body of board `id` to the whole service; other boards are untouched. */
  function SweepBoard(svc: Service, id: string, reply: HwReply, now: nat): (r: (Service, seq<RelayEvent>))
    ensures r.0.boards.Keys == svc.boards.Keys
    ensures forall k :: k in svc.boards && k != id ==> r.0.boards[k] == svc.boards[k]
    ensures forall k :: k != id ==> CacheAt(r.0, k) == CacheAt(svc, k)
    ensures forall e :: e in r.1 ==> e.boardId == id
    ensures id !in svc.boards ==> r == (svc, [])
    ensures id in svc.boards ==>
      var (b, c, events) := SweepEntry(id, svc.boards[id], CacheAt(svc, id), reply, now);
      r.0.boards[id] == b && CacheAt(r.0, id) == c && r.1 == events
  {
    if id !in svc.boards then (svc, [])
    else
      var (b, c, events) := SweepEntry(id, svc.boards[id], CacheAt(svc, id), reply, now);
      (Service(svc.boards[id := b], if c.Some? then svc.cache[id := c.value] else svc.cache), events)
  }

  /** The reply used for a board the sweep has no reply for: the fetch failed. */
  function ReplyFor(replies: map<string, HwReply>, id: string): HwReply {
    if id in replies then replies[id] else NetworkError
  }

  /** What the sweep body gives for board `id` alone, on the starting state. */
  function SweptEntry(svc: Service, replies: map<string, HwReply>, now: nat, id: string): (Board, Option<CacheEntry>, seq<RelayEvent>)
    requires id in svc.boards
  {
    SweepEntry(id, svc.boards[id], CacheAt(svc, id), ReplyFor(replies, id), now)
  }

  /** Board `id` of `out` holds what its own sweep body gives on `svc`. */
  predicate SweptTo(svc: Service, replies: map<string, HwReply>, now: nat, out: Service, id: string)
    requires id in svc.boards && id in out.boards
  {
    out.boards[id] == SweptEntry(svc, replies, now, id).0 && CacheAt(out, id) == SweptEntry(svc, replies, now, id).1
  }

  /** `e` is one of the events the sweep body of a board outside `todo` publishes. */
  predicate SweptEvent(svc: Service, replies: map<string, HwReply>, now: nat, todo: set<string>, e: RelayEvent) {
    e.boardId in svc.boards && e.boardId !in todo && e in SweptEntry(svc, replies, now, e.boardId).2
  }

  /**
   * `syncAllBoards`: every board is fetched (concurrently in the source) and
   * its outcome is exactly what the sweep body gives for that board alone on
   * the starting state; a board whose fetch fails keeps its entries, and no
   * failure affects another board. Events are the union of the boards' events.
   */
  method SyncAllBoards(svc: Service, replies: map<string, HwReply>, now: nat) returns (out: Service, events: seq<RelayEvent>)
    ensures out.boards.Keys == svc.boards.Keys
    ensures forall id :: id in svc.boards ==> SweptTo(svc, replies, now, out, id)
    ensures forall id :: id !in svc.boards ==> CacheAt(out, id) == CacheAt(svc, id)
    ensures forall e :: e in events <==> SweptEvent(svc, replies, now, {}, e)
    ensures forall i, j :: 0 <= i < j < |events| ==> events[i].boardId != events[j].boardId
  {
    var todo := svc.boards.Keys;
    out := svc;
    events := [];
    while todo != {}
      invariant todo <= svc.boards.Keys
      invariant out.boards.Keys == svc.boards.Keys
      invariant forall id :: id in todo ==> out.boards[id] == svc.boards[id] && CacheAt(out, id) == CacheAt(svc, id)
      invariant forall id :: id !in svc.boards ==> CacheAt(out, id) == CacheAt(svc, id)
      invariant forall id :: id in svc.boards && id !in todo ==> SweptTo(svc, replies, now, out, id)
      invariant forall e :: e in events <==> SweptEvent(svc, replies, now, todo, e)
      invariant forall i, j :: 0 <= i < j < |events| ==> events[i].boardId != events[j].boardId
      decreases todo
    {
      var id :| id in todo;
      var r := SweepBoard(out, id, ReplyFor(replies, id), now);
      assert r.1 == SweptEntry(svc, replies, now, id).2;
      assert SweptTo(svc, replies, now, r.0, id);
      forall k | k in svc.boards && k !in todo
        ensures SweptTo(svc, replies, now, r.0, k)
      {
        assert SweptTo(svc, replies, now, out, k);
      }
      forall e
        ensures e in events + r.1 <==> SweptEvent(svc, replies, now, todo - {id}, e)
      {
        assert SweptEvent(svc, replies, now, todo - {id}, e) <==> SweptEvent(svc, replies, now, todo, e) || e in r.1;
      }
      assert |r.1| <= 1 && forall e :: e in r.1 ==> e.boardId == id;
      assert forall e :: e in events ==> e.boardId != id;
      out := r.0;
      events := events + r.1;
      todo := todo - {id};
    }
  }

  /**
   * End-to-end: a board of 8 relays cached as all-off is toggled at relay 0;
   * the toggle returns `"10000000"`, and a sweep right after, whose page reads
   * back the same state, publishes nothing.
   */
  lemma ToggleThenAgreeingSweepIsSilent(svc: Service, id: string, reply: HwReply, now: nat, page: HwReply)
    requires id in svc.boards && svc.boards[id].totalRelays == 8
    requires id in svc.cache && svc.cache[id].state == "00000000"
    requires ReplyOk(reply) && ReplyOk(page)
    requires Devantech.ParseDevantechXml(page.body, 8) == "10000000"
    ensures ToggleRelay(svc, id, 0, reply, now).Ok?
    ensures var t := ToggleRelay(svc, id, 0, reply, now).value.step;
      && t.value == "10000000"
      && SweepBoard(t.svc, id, page, now).1 == []
  {
    assert RelayBits.FlipAt("00000000", 0) == "10000000";
  }

  /**
   * `startPeriodicSync`: starts the interval and one immediate sweep, unless
   * an interval is already running, in which case it does nothing. The result
   * is whether an interval now runs and whether a sweep was started.
   */
  function StartPeriodicSync(running: bool): (r: (bool, bool))
    ensures r.0
    ensures r.1 <==> !running
  {
    if running then (true, false) else (true, true)
  }

  /** `stopPeriodicSync`. */
  function StopPeriodicSync(running: bool): (r: bool)
    ensures !r
  {
    false
  }

  /** Starting twice starts one sweep; stopping lets the next start sweep again. */
  lemma StartIsGuarded(running: bool)
    ensures !StartPeriodicSync(StartPeriodicSync(running).0).1
    ensures StartPeriodicSync(StopPeriodicSync(running)).1
  {
  }
}

=== FILE: serial_manager.dfy ===
/**
 * The serial session multiplexer (`SerialManager` in `serial-manager.ts`):
 * one connection per serial port id, shared by any number of WebSocket
 * clients, with a bounded replay buffer and a delayed close once the last
 * client leaves. Port callbacks and the grace timer are explicit events; which
 * sockets are open when a frame goes out is an input.
 */
module SerialManager {
  import opened Wrappers

  /** The replay buffer keeps at most this many characters. */
  const MaxBufferSize := 50000
  const DefaultBaudRate := 115200
  /** Milliseconds between the last client leaving and the close check. */
  const GraceMillis := 5000

  type ClientId = nat

  /** The JSON frames sent to clients, by their `type`. */
  datatype Frame =
    | DataFrame(data: string)
    | ErrorFrame(error: string)
    | Disconnected
    | History(data: string)
    | Connected(serialId: string)

  datatype Delivery = Delivery(client: ClientId, frame: Frame)

  datatype Conn = Conn(isOpen: bool, baudRate: int, clients: set<ClientId>, buffer: string)

  datatype Manager = Manager(connections: map<string, Conn>)

  const NoConnections := Manager(map[])

  /** Keep only the last `MaxBufferSize` characters (`slice(-MAX_BUFFER_SIZE)`). */
  function Trim(s: string): (r: string)
    ensures |r| == if |s| > MaxBufferSize then MaxBufferSize else |s|
    ensures r == s[|s| - |r|..]
  {
    if |s| > MaxBufferSize then s[|s| - MaxBufferSize..] else s
  }

  /** A frame goes to every client of the connection whose socket is open, and to no one else. */
  function Broadcast(c: Conn, frame: Frame, openSockets: set<ClientId>): (r: set<Delivery>)
    ensures forall d :: d in r <==> d.client in c.clients && d.client in openSockets && d.frame == frame
  {
    set client | client in c.clients && client in openSockets :: Delivery(client, frame)
  }

  /** The manager after a step, and the frames the step sent. */
  datatype Effect = Effect(mgr: Manager, sent: set<Delivery>)

  /**
   * `closeConnection`: tell the open clients the port is gone and forget the
   * id; an unknown id changes nothing.
   */
  function CloseConnection(mgr: Manager, id: string, openSockets: set<ClientId>): (r: Effect)
    ensures r.mgr.connections == mgr.connections - {id}
    ensures forall d :: d in r.sent <==>
      id in mgr.connections && d.client in mgr.connections[id].clients && d.client in openSockets && d.frame == Disconnected
  {
    if id in mgr.connections then
      Effect(Manager(mgr.connections - {id}), Broadcast(mgr.connections[id], Disconnected, openSockets))
    else Effect(mgr, {})
  }

  datatype SerialError = OpenFailed

  /**
   * `getOrCreateConnection`: an open connection is reused as it is (the baud
   * rate asked for is ignored); otherwise a stale one is closed first and a
   * new, empty connection enters the map only when the port opens.
   */
  function GetOrCreateConnection(mgr: Manager, id: string, baudRate: int, opens: bool, openSockets: set<ClientId>): (r: (Effect, Result<Conn, SerialError>))
    ensures id in mgr.connections && mgr.connections[id].isOpen ==> r.0 == Effect(mgr, {}) && r.1 == Ok(mgr.connections[id])
    ensures !(id in mgr.connections && mgr.connections[id].isOpen) ==>
      && (r.1.Ok? <==> opens)
      && (opens ==> r.1.value == Conn(true, baudRate, {}, "") && r.0.mgr.connections == mgr.connections[id := r.1.value])
      && (!opens ==> id !in r.0.mgr.connections && r.0.mgr.connections == mgr.connections - {id})
      && r.0.sent == CloseConnection(mgr, id, openSockets).sent
  {
    if id in mgr.connections && mgr.connections[id].isOpen then (Effect(mgr, {}), Ok(mgr.connections[id]))
    else
      var cleaned := CloseConnection(mgr, id, openSockets);
      if opens then
        var c := Conn(true, baudRate, {}, "");
        (Effect(Manager(cleaned.mgr.connections[id := c]), cleaned.sent), Ok(c))
      else (cleaned, Err(OpenFailed))
  }

  /**
   * `addClient`: the client joins the connection and is sent the history,
   * when there is any, and then `connected`, whatever its socket state.
   */
  function AddClient(id: string, c: Conn, client: ClientId): (r: (Conn, seq<Frame>))
    ensures r.0 == c.(clients := c.clients + {client})
    ensures |r.1| >= 1 && r.1[|r.1| - 1] == Connected(id)
    ensures History(c.buffer) in r.1 <==> |c.buffer| > 0
    ensures |r.1| == 2 ==> r.1[0] == History(c.buffer)
    ensures |r.1| <= 2
  {
    (c.(clients := c.clients + {client}), (if |c.buffer| > 0 then [History(c.buffer)] else []) + [Connected(id)])
  }

  /**
   * A WebSocket connection for a port: get or create the connection, then add
   * the client to it. The client's frames are its own; `sent` is what the
   * clean-up of a stale connection broadcast.
   */
  function Join(mgr: Manager, id: string, baudRate: int, client: ClientId, opens: bool, openSockets: set<ClientId>): (r: (Effect, Result<seq<Frame>, SerialError>))
    ensures r.1.Ok? ==> id in r.0.mgr.connections && client in r.0.mgr.connections[id].clients
    ensures r.1.Err? ==> id !in r.0.mgr.connections
    ensures r.1.Ok? <==> (id in mgr.connections && mgr.connections[id].isOpen) || opens
    ensures id in mgr.connections && mgr.connections[id].isOpen ==>
      var c := mgr.connections[id];
      && r.1 == Ok((if |c.buffer| > 0 then [History(c.buffer)] else []) + [Connected(id)])
      && r.0.mgr.connections[id] == c.(clients := c.clients + {client})
    ensures !(id in mgr.connections && mgr.connections[id].isOpen) && opens ==>
      && r.1 == Ok([Connected(id)])
      && r.0.mgr.connections[id] == Conn(true, baudRate, {client}, "")
    ensures forall other :: other != id && other in mgr.connections ==>
      other in r.0.mgr.connections && r.0.mgr.connections[other] == mgr.connections[other]
  {
    var (e, conn) := GetOrCreateConnection(mgr, id, baudRate, opens, openSockets);
    match conn
    case Err(err) => (e, Err(err))
    case Ok(c) =>
      var (c', frames) := AddClient(id, c, client);
      assert c.buffer == "" ==> frames == [Connected(id)];
      (Effect(Manager(e.mgr.connections[id := c']), e.sent), Ok(frames))
  }

  /**
   * `removeClient`: the client leaves; the second component says whether the
   * grace timer starts, which it does exactly when no client is left.
   */
  function RemoveClient(mgr: Manager, id: string, client: ClientId): (r: (Manager, bool))
    ensures id !in mgr.connections ==> r == (mgr, false)
    ensures id in mgr.connections ==>
      && r.0.connections == mgr.connections[id := mgr.connections[id].(clients := mgr.connections[id].clients - {client})]
      && (r.1 <==> mgr.connections[id].clients <= {client})
  {
    if id in mgr.connections then
      var c := mgr.connections[id];
      var c' := c.(clients := c.clients - {client});
      (Manager(mgr.connections[id := c']), |c'.clients| == 0)
    else (mgr, false)
  }

  /** The grace timer fires: close only if the id is still mapped and still has no client. */
  function GraceTimerFired(mgr: Manager, id: string, openSockets: set<ClientId>): (r: Effect)
    ensures (id in mgr.connections && mgr.connections[id].clients == {}) ==> r == CloseConnection(mgr, id, openSockets)
    ensures !(id in mgr.connections && mgr.connections[id].clients == {}) ==> r == Effect(mgr, {})
  {
    if id in mgr.connections && |mgr.connections[id].clients| == 0 then CloseConnection(mgr, id, openSockets)
    else Effect(mgr, {})
  }

  /**
   * The port's `data` handler: the chunk is appended to the buffer, which is
   * trimmed to its last `MaxBufferSize` characters, and goes to the open clients.
   */
  function PortData(mgr: Manager, id: string, text: string, openSockets: set<ClientId>): (r: Effect)
    ensures id !in mgr.connections ==> r == Effect(mgr, {})
    ensures id in mgr.connections ==>
      && r.mgr.connections.Keys == mgr.connections.Keys
      && r.mgr.connections[id] == mgr.connections[id].(buffer := r.mgr.connections[id].buffer)
      && |r.mgr.connections[id].buffer| <= MaxBufferSize
      && r.mgr.connections[id].buffer == Trim(mgr.connections[id].buffer + text)
      && (forall d :: d in r.sent <==> d.client in mgr.connections[id].clients && d.client in openSockets && d.frame == DataFrame(text))
    ensures forall other :: other != id && other in mgr.connections ==> r.mgr.connections[other] == mgr.connections[other]
  {
    if id in mgr.connections then
      var c := mgr.connections[id];
      Effect(Manager(mgr.connections[id := c.(buffer := Trim(c.buffer + text))]), Broadcast(c, DataFrame(text), openSockets))
    else Effect(mgr, {})
  }

  /** The port's `error` handler: an error frame to the open clients; nothing else changes. */
  function PortError(mgr: Manager, id: string, message: string, openSockets: set<ClientId>): (r: Effect)
    ensures r.mgr == mgr
    ensures forall d :: d in r.sent <==>
      id in mgr.connections && d.client in mgr.connections[id].clients && d.client in openSockets && d.frame == ErrorFrame(message)
  {
    if id in mgr.connections then Effect(mgr, Broadcast(mgr.connections[id], ErrorFrame(message), openSockets))
    else Effect(mgr, {})
  }

  /** The port's `close` handler: the same notice and removal as `closeConnection`. */
  function PortClosed(mgr: Manager, id: string, openSockets: set<ClientId>): (r: Effect)
    ensures r.mgr.connections == mgr.connections - {id}
    ensures forall d :: d in r.sent <==>
      id in mgr.connections && d.client in mgr.connections[id].clients && d.client in openSockets && d.frame == Disconnected
  {
    CloseConnection(mgr, id, openSockets)
  }

  /** `write`: the data goes to the port, and `true` comes back, exactly when the connection exists and is open. */
  function Write(mgr: Manager, id: string, data: string): (r: Option<string>)
    ensures r.Some? <==> id in mgr.connections && mgr.connections[id].isOpen
    ensures r.Some? ==> r.value == data
  {
    if id in mgr.connections && mgr.connections[id].isOpen then Some(data) else None
  }

  function IsConnected(mgr: Manager, id: string): (b: bool)
    ensures b <==> id in mgr.connections && mgr.connections[id].isOpen
  {
    id in mgr.connections && mgr.connections[id].isOpen
  }

  function GetClientCount(mgr: Manager, id: string): (n: nat)
    ensures id !in mgr.connections ==> n == 0
    ensures id in mgr.connections ==> n == |mgr.connections[id].clients|
  {
    if id in mgr.connections then |mgr.connections[id].clients| else 0
  }

  /** `closeAll`: close every connection, in some order; every open client of each hears `disconnected`. */
  method CloseAll(mgr: Manager, openSockets: set<ClientId>) returns (out: Manager, sent: set<Delivery>)
    ensures out == NoConnections
    ensures forall d :: d in sent <==> exists id :: id in mgr.connections && d in Broadcast(mgr.connections[id], Disconnected, openSockets)
  {
    out := mgr;
    sent := {};
    var todo := mgr.connections.Keys;
    while todo != {}
      invariant todo == out.connections.Keys
      invariant forall id :: id in out.connections ==> id in mgr.connections && out.connections[id] == mgr.connections[id]
      invariant forall d :: d in sent <==> exists id :: id in mgr.connections && id !in todo && d in Broadcast(mgr.connections[id], Disconnected, openSockets)
      decreases |todo|
    {
      var id :| id in todo;
      var e := CloseConnection(out, id, openSockets);
      out, sent := e.mgr, sent + e.sent;
      todo := todo - {id};
    }
  }

  // ---------------------------------------------------------------------------
  // Properties across steps

  /** Trimming early loses nothing that trimming at the end would keep. */
  lemma TrimAbsorbs(a: string, b: string)
    ensures Trim(Trim(a) + b) == Trim(a + b)
  {
    var t := Trim(a) + b;
    var s := a + b;
    assert t == s[|s| - |t|..];
    if |t| > MaxBufferSize {
      assert Trim(t) == t[|t| - MaxBufferSize..] == s[|s| - MaxBufferSize..];
    }
  }

  /** The buffer after a run of `data` events starting from `buffer`. */
  function BufferAfter(buffer: string, chunks: seq<string>): string
    decreases |chunks|
  {
    if |chunks| == 0 then buffer else BufferAfter(Trim(buffer + chunks[0]), chunks[1..])
  }

  function Concat(chunks: seq<string>): string {
    if |chunks| == 0 then "" else chunks[0] + Concat(chunks[1..])
  }

  /**
   * Whatever the chunking, the replay buffer is the last `MaxBufferSize`
   * characters of everything the port produced since the connection opened.
   */
  lemma {:induction false} BufferIsTailOfOutput(start: string, chunks: seq<string>)
    requires |start| <= MaxBufferSize
    ensures BufferAfter(start, chunks) == Trim(start + Concat(chunks))
    decreases |chunks|
  {
    if |chunks| > 0 {
      var next := Trim(start + chunks[0]);
      var rest := Concat(chunks[1..]);
      assert Concat(chunks) == chunks[0] + rest;
      assert (start + chunks[0]) + rest == start + (chunks[0] + rest);
      BufferIsTailOfOutput(next, chunks[1..]);
      TrimAbsorbs(start + chunks[0], rest);
    }
  }

  /** A write reaches the port exactly while the port reads as connected, and never after its connection is closed. */
  lemma WriteNeedsConnection(mgr: Manager, id: string, data: string, openSockets: set<ClientId>)
    ensures Write(mgr, id, data).Some? <==> IsConnected(mgr, id)
    ensures Write(CloseConnection(mgr, id, openSockets).mgr, id, data) == None
    ensures Write(PortClosed(mgr, id, openSockets).mgr, id, data) == None
  {
  }

  /** A client that rejoins before the grace timer fires keeps the connection, and its buffer. */
  lemma RejoinWithinGraceKeepsConnection(mgr: Manager, id: string, client: ClientId, baudRate: int, opens: bool, openSockets: set<ClientId>)
    requires id in mgr.connections && mgr.connections[id].isOpen && mgr.connections[id].clients == {client}
    ensures var (left, timer) := RemoveClient(mgr, id, client);
      var (joined, _) := Join(left, id, baudRate, client, opens, openSockets);
      var fired := GraceTimerFired(joined.mgr, id, openSockets);
      && timer
      && fired.sent == {}
      && id in fired.mgr.connections
      && fired.mgr.connections[id] == mgr.connections[id]
  {
    var (left, timer) := RemoveClient(mgr, id, client);
    assert left.connections[id].clients == {};
  }

  /** Without a rejoin, the timer closes the connection. */
  lemma LastClientLeavingClosesAfterGrace(mgr: Manager, id: string, client: ClientId, openSockets: set<ClientId>)
    requires id in mgr.connections && mgr.connections[id].clients == {client}
    ensures var (left, timer) := RemoveClient(mgr, id, client);
      timer && !IsConnected(GraceTimerFired(left, id, openSockets).mgr, id)
      && GetClientCount(GraceTimerFired(left, id, openSockets).mgr, id) == 0
  {
    var (left, timer) := RemoveClient(mgr, id, client);
    assert left.connections[id].clients == {};
  }
}

=== FILE: session.dfy ===
/** The authenticated user a server action sees (`auth()`'s session), or none. */
module Session {
  import opened Wrappers

  datatype User = User(id: string, isAdmin: bool, roleIds: set<string>)

  type Session = Option<User>

  /** `session?.user?.isAdmin` is truthy. */
  predicate IsAdmin(s: Session) {
    s.Some? && s.value.isAdmin
  }

  /** `session?.user?.id` is truthy: present and not the empty string. */
  predicate HasUserId(s: Session) {
    s.Some? && s.value.id != ""
  }
}

=== FILE: settings.dfy ===
/**
 * Global settings (`settings.ts`): the lock lease length and how long before
 * expiry the browser warns, both in minutes. The row is created with the
 * defaults the first time it is read.
 */
module Settings {
  import opened Wrappers
  import opened Session

  datatype Settings = Settings(lockTimeoutMins: int, warningBeforeMins: int)

  const DefaultSettings: Settings := Settings(30, 5)

  /** The rules `updateSettings` enforces. */
  predicate Valid(s: Settings) {
    s.lockTimeoutMins >= 5 && s.warningBeforeMins >= 1 && s.warningBeforeMins < s.lockTimeoutMins
  }

  /** `getSettings`: the stored row, or the defaults, which are then stored. */
  function GetSettings(stored: Option<Settings>): (r: (Settings, Option<Settings>))
    ensures r.1 == Some(r.0)
    ensures stored.Some? ==> r.0 == stored.value
    ensures stored.None? ==> r.0 == DefaultSettings && Valid(r.0)
  {
    match stored
    case Some(s) => (s, stored)
    case None => (DefaultSettings, Some(DefaultSettings))
  }

  datatype SettingsError = NotAuthorized | TimeoutTooShort | WarningTooShort | WarningNotBeforeTimeout

  /**
   * `updateSettings`: admins only, then the three rules in the source's order;
   * on success the row holds exactly the submitted values.
   */
  function UpdateSettings(stored: Option<Settings>, session: Session, lockTimeoutMins: int, warningBeforeMins: int): (r: Result<Option<Settings>, SettingsError>)
    ensures r.Ok? <==> IsAdmin(session) && Valid(Settings(lockTimeoutMins, warningBeforeMins))
    ensures r.Ok? ==> r.value == Some(Settings(lockTimeoutMins, warningBeforeMins))
    ensures !IsAdmin(session) ==> r == Err(NotAuthorized)
    ensures IsAdmin(session) && lockTimeoutMins < 5 ==> r == Err(TimeoutTooShort)
    ensures IsAdmin(session) && lockTimeoutMins >= 5 && warningBeforeMins < 1 ==> r == Err(WarningTooShort)
    ensures IsAdmin(session) && lockTimeoutMins >= 5 && warningBeforeMins >= 1 && warningBeforeMins >= lockTimeoutMins
      ==> r == Err(WarningNotBeforeTimeout)
  {
    if !IsAdmin(session) then Err(NotAuthorized)
    else if lockTimeoutMins < 5 then Err(TimeoutTooShort)
    else if warningBeforeMins < 1 then Err(WarningTooShort)
    else if warningBeforeMins >= lockTimeoutMins then Err(WarningNotBeforeTimeout)
    else Ok(Some(Settings(lockTimeoutMins, warningBeforeMins)))
  }

  /** Whatever sequence of reads and successful updates ran, the stored row obeys the rules. */
  lemma StoredSettingsStayValid(stored: Option<Settings>, session: Session, t: int, w: int)
    requires stored.None? || Valid(stored.value)
    ensures Valid(GetSettings(stored).0)
    ensures UpdateSettings(stored, session, t, w).Ok? ==> Valid(UpdateSettings(stored, session, t, w).value.value)
    ensures UpdateSettings(stored, session, t, w).Err? ==> stored.None? || Valid(stored.value)
  {
  }

  /** The defaults pass the same rules an admin's update must pass. */
  lemma DefaultsPassValidation(admin: User)
    requires admin.isAdmin
    ensures UpdateSettings(None, Some(admin), DefaultSettings.lockTimeoutMins, DefaultSettings.warningBeforeMins)
      == Ok(Some(DefaultSettings))
  {
  }
}

=== FILE: text.dfy ===
/** Small facts about strings used by several modules. */
module Text {

  predicate IsDigit(c: char) {
    '0' <= c <= '9'
  }

  /** Every character is a decimal digit. */
  predicate AllDigits(s: string) {
    forall i :: 0 <= i < |s| ==> IsDigit(s[i])
  }

  /** JavaScript's `s.startsWith(prefix)`. */
  predicate StartsWith(s: string, prefix: string) {
    |prefix| <= |s| && s[..|prefix|] == prefix
  }

  function DigitChar(d: nat): (c: char)
    requires d < 10
    ensures IsDigit(c)
  {
    ['0', '1', '2', '3', '4', '5', '6', '7', '8', '9'][d]
  }

  /** Decimal rendering of a natural number, as a template literal prints it. */
  function NatToString(n: nat): (s: string)
    ensures |s| >= 1
    ensures AllDigits(s)
    decreases n
  {
    if n < 10 then [DigitChar(n)] else NatToString(n / 10) + [DigitChar(n % 10)]
  }
}

=== FILE: wrappers.dfy ===
/**
 * Optional values and results shared by every module of the model.
 * `None` stands for the source's `null`/`undefined`, `Err` for a thrown
 * exception or an error response.
 */
module Wrappers {

  datatype Option<+T> = None | Some(value: T) {

    /** The value, or `default` when absent (the source's `??`). */
    function GetOr(default: T): T {
      match this
      case Some(v) => v
      case None => default
    }
  }

  datatype Result<+T, +E> = Ok(value: T) | Err(error: E)
}
